=== FILE: README.md ===
# desktop_lyric engine — a Dafny model

desktop_lyric shows the current line of the song a desktop media player is
playing. A background engine finds the player over MPRIS, finds a lyric for
the track and then, about fifty times a second, works out the playback
position and writes the line that has begun into a shared text cell that the
window draws. This project models that engine and proves properties of it:

- `wrappers.dfy` — `Option`, `Result` and the `U64` range.
- `text.dfy` — the Rust `str` operations the engine relies on (`replace`,
  `trim`, `lines`, `split('\t').nth(0)`, `split`, `join`), each written the way
  the standard library computes it and characterised by its contract.
- `paths.dfy` — `Path::file_name`, `file_stem` and `extension` on Unix paths.
- `lyric.rs` → `lyric.dfy` — `Lyric`, `LyricLine` and `Lyric::from_str`.
- `fuo.rs` → `fuo.dfy` — song-id extraction from `fuo status` and the
  `fuo show <id>/lyric` request of `FuoClient::lyric`.
- `serve.rs` → `selection.dfy` — the position estimate, the choice of the
  current line and the write to the shared cell.
- `serve.rs` → `resolver.dfy` — `find_lyric` and `find_lyric_online`.
- `serve.rs` → `engine.dfy` — `handle_event`, the tick counter and the three
  nested loops as a state machine (`FinderLoop`, `PlayerLoop`,
  `TrackingLoop`, and `Halted` for a panic of the engine thread). It is driven
  by what the world answers during each pass.

Everything the engine asks of the outside is a parameter of the model:

- the D-Bus player finder and player;
- the approximate-match index (`Ranker`);
- the LRC parser (`Parser`);
- the home directory, readable files and directory listings (`LyricSources`);
- the output of the `fuo` commands;
- the clock (elapsed nanoseconds per tick);
- the event channel (an optional event per pass);
- whether info-level logging is enabled (`RUST_LOG`), which decides whether
  the title check of the player loop runs at all.

Where the Rust code panics (an `unwrap` on an error), the model returns `Err`
or moves the engine to `Halted`.

## Notes on the code

Six behaviours of the engine, as src/serve.rs has them:

- Draining one event and re-sampling the position happen on every tick whose
  count is 11 through 50 (`if count > 10` sits after the reset), so on 40
  of every 51 ticks. `Engine.Cadence` states the cadence.
- The metadata check happens when the count is 51, i.e. on ticks 51, 102,
  153, … of a session, so its period is 51 ticks.
- An event taken in the player or tracking loop does `break 'player`. That
  goes back to the `'finder` loop, which builds a new `PlayerFinder` before
  selecting a player again.
- `url.replace("file://", "")` removes every occurrence of `file://` in the
  URL, wherever it occurs (`Resolver.UrlPath`).
- The song counts as changed only when the title AND the artists both
  differ. `Engine.SameArtistsNotNoticed` shows the consequence: a new song by
  the same artists keeps the old lyric.
- The check that the track has a title (src/serve.rs:80-83) is an argument
  of `info!`, so it runs only when info-level logging is enabled.
  `env_logger::init()` enables only errors unless `RUST_LOG` says otherwise,
  so by default a track without a title is tracked (`Engine.UntitledTrack`).

## Model

| member | source | states |
|---|---|---|
| Text.IndexOf | src/fuo.rs:22 | `chars().position(':')`: the first index holding the char, none exactly when the char is absent |
| Text.ReplaceAll | src/lyric.rs:15 | `str::replace`: a left-to-right scan replacing every non-overlapping occurrence, leftmost first; its result on every text is fixed by ReplaceAbsent (no occurrence) and ReplaceAtLeftmost (a leftmost occurrence) |
| Text.ReplaceRemovesPattern | src/lyric.rs:15 | after `replace`, a non-empty pattern no longer occurs, if the replacement cannot recreate it |
| Text.ReplaceAbsent | src/lyric.rs:15 | `replace` of a pattern that does not occur returns the text unchanged |
| Text.ReplaceAtFirst | src/lyric.rs:15 | when no occurrence of the pattern starts in the text `a` before an occurrence, `a` is copied, that occurrence becomes the replacement and the scan goes on after it |
| Text.ReplaceAtLeftmost | src/lyric.rs:15 | on any text where the pattern occurs: the text before the leftmost occurrence is copied, that occurrence is replaced and the rest is replaced in turn |
| Text.ReplaceCharIsExpand | src/serve.rs:143 | replacing a one-char pattern is the same as expanding each occurrence of that char (a reference definition) |
| Text.Trim | src/fuo.rs:23 | `trim` gives an infix of the text; everything cut off is Unicode whitespace; the ends of a non-empty result are not |
| Text.TakeUntil | src/fuo.rs:24-25 | `split('\t').nth(0)` is the prefix before the first tab; it holds no tab, and it is the whole text exactly when there is no tab |
| Text.Lines | src/fuo.rs:20 | `lines()` yields pieces without line feeds; LinesCons, LinesCrLf, LinesOfTerminated and LinesOfUnterminated give its result on texts built from lines |
| Text.LinesCons | src/fuo.rs:20 | a line with no `\n` in it and no `\r` at its end, ended by `\n`, comes out first, followed by the lines of the rest |
| Text.LinesOfTerminated | src/fuo.rs:20 | round trip: `lines()` of lines each ended by `\n` gives those lines back |
| Text.LinesOfUnterminated | src/fuo.rs:20 | a last line with no `\n` after it is still returned, unchanged, after the terminated lines |
| Text.LinesCrLf | src/fuo.rs:20 | a `\r\n` ending ends a line and is dropped whole |
| Text.SplitJoin | src/lyric.rs:22-27 | round trip: splitting words joined by a separator they do not contain gives the words back |
| Paths.FileName | src/serve.rs:147 | `file_name` is a non-empty last component, never `.` or `..`, without `/` |
| Paths.FileStem | src/serve.rs:147 | `file_stem` exists exactly when `file_name` does; it is a non-empty prefix of it |
| Paths.Extension | src/serve.rs:154 | `extension` exists only with a stem and holds no `.` |
| Paths.FileNameParts | src/serve.rs:147-154 | the file name is the stem, plus `.` and the extension when there is one |
| Paths.LrcPathParts | src/serve.rs:153-173 | the path `<dir>/<stem>.lrc` has stem `stem` and extension `lrc` |
| Lyric.Unescape | src/lyric.rs:15 | after unescaping, `&apos;` never occurs; text without it is unchanged |
| Lyric.UnescapeAt | src/lyric.rs:15 | for any text `a` without `&apos;`, the `&apos;` after it becomes `'`, `a` is kept and the rest of the text is unescaped in turn |
| Lyric.UnescapeIdempotent | src/lyric.rs:15 | unescaping twice is unescaping once |
| Lyric.FromStr | src/lyric.rs:14-31 | one line per parsed cue, in order, with the cue's start and end times |
| Lyric.LineOf | src/lyric.rs:19-28 | the line of one cue: its start and end times and its words joined by single spaces; ContentKeepsWords shows the words come back out |
| Lyric.LinesOf | src/lyric.rs:18-29 | the `for` loop: one line per cue, in the parser's order; FromStr states the times and FromStrKeepsWords the contents |
| Lyric.FromStrKeepsWords | src/lyric.rs:18-29 | each line keeps the words of the cue at the same position: splitting its content at spaces gives them back, in order |
| Lyric.ContentOfFewWords | src/lyric.rs:22-27 | a cue without words gives an empty line; a one-word cue gives that word |
| Lyric.ContentKeepsWords | src/lyric.rs:22-27 | the content keeps every word in order: splitting it at spaces gives the words back |
| Lyric.FromStrClean | src/lyric.rs:15-17 | text without `&apos;` reaches the parser verbatim |
| Lyric.FromStrUnescaped | src/lyric.rs:15 | unescaping before `from_str` changes nothing |
| Fuo.IdAfterColon | src/fuo.rs:22-25 | an id exists exactly when the line has a `:`; it has no tab and does not start with whitespace |
| Fuo.SongLines | src/fuo.rs:21 | `filter(contains("song:")).collect()`: the lines holding `song:`, concatenated in order without separator; SongLinesAppend and SongLinesOthers characterise it |
| Fuo.SongLine | src/fuo.rs:19-21 | the collected line of a status text: `song:` lines of its `lines()`; SongLineOfStatus pins it for a status with one song line |
| Fuo.ShowArgument | src/fuo.rs:31 | the argument of `fuo show`: the id followed by `/lyric`, as FuoLyric states |
| Fuo.SongId | src/fuo.rs:19-25 | the song id exists exactly when the collected `song:` lines have a `:`; no tab, no leading whitespace |
| Fuo.FuoLyric | src/fuo.rs:18-38 | the lyric exists exactly when there is a song id, and it is the output of `fuo show <id>/lyric` |
| Fuo.SongLinesAppend | src/fuo.rs:21 | collecting the `song:` lines keeps their order across a concatenation |
| Fuo.SongLinesOthers | src/fuo.rs:21 | lines without `song:` contribute nothing to the collected line |
| Fuo.NoSongLineNoId | src/fuo.rs:21-22 | a status without a `song:` line has no id, and `fuo show` is never asked |
| Fuo.SongIdOfStatus | src/fuo.rs:19-25 | round trip: from a status whose one song line is `song:<blanks><id>\t<rest>`, the id extracted is `id` |
| Fuo.SongLineOfStatus | src/fuo.rs:19-21 | a status whose only `song:` line is `line`, among plain lines, collects to exactly `line` |
| Selection.EstimatePos | src/serve.rs:119 | the position is none exactly when the duration sum overflows; below the wrap it is the whole milliseconds of the sum |
| Selection.EstimateMonotone | src/serve.rs:119 | below the wrap, a later instant never gives an earlier position |
| Selection.Begun | src/serve.rs:120-125 | the `filter(begin <= pos).map(content)` of the lines, in order; never longer than the lines, and BegunLast equates its last element with the last begun line |
| Selection.LastBegun | src/serve.rs:120-126 | the candidate is the last line, in order, whose begin is at or before the position; none exactly when no line has begun |
| Selection.BegunLast | src/serve.rs:120-126 | the last of the filtered contents is the content of that candidate line |
| Selection.Publish | src/serve.rs:119-132 | the cell changes only to the non-empty content of the candidate; otherwise it keeps its value |
| Selection.SortedSelectsGreatestBegin | src/serve.rs:120-126 | with sorted lines the candidate has the greatest begin not after the position; before the first cue there is none |
| Selection.SelectionMonotone | src/serve.rs:123-126 | a later position never selects an earlier line |
| Selection.PublishIgnoresEnd | src/serve.rs:120-126 | the `end` of a line never affects what is published |
| Selection.PublishNeverBlanks | src/serve.rs:126-131 | once the cell holds text it is never blanked |
| Selection.PublishFromLines | src/serve.rs:120-131 | the cell is its previous value or the content of a begun line |
| Selection.HelloWorldExample | src/serve.rs:119-132 | the two-line example: "Hello" past its end, the previous line before the first cue, "World" from its begin |
| Selection.EmptyLineKeepsCell | src/serve.rs:128-130 | an empty current line does not overwrite the cell |
| Resolver.ExpandHome | src/serve.rs:143 | every `~` is replaced by the home directory; no `~` is left when home has none; a directory without `~` is unchanged |
| Resolver.UrlPath | src/serve.rs:146 | the URL with every `file://` removed by `str::replace` (see Text.ReplaceAll); NoFileNoLyric and ExactLookup use it |
| Resolver.FindLyricOnline | src/serve.rs:215-217 | the online lookup always fails |
| Resolver.LrcIndex | src/serve.rs:150-165 | the index exists exactly when every entry can be read; every indexed path is a listed `.lrc` entry with a stem, labelled by its stem, and every such entry is indexed |
| Resolver.LrcIndexInOrder | src/serve.rs:150-165 | the index keeps the listing order: its paths sit at increasing positions of the listing |
| Resolver.LocalLyric | src/serve.rs:145-178 | a local lyric is the parse of some readable file; a panic happens only with fuzzy matching |
| Resolver.FallbackLyric | src/serve.rs:179-194 | after a local miss, the lyric is always the parse of empty text |
| Resolver.FindLyric | src/serve.rs:142-195 | a panic without a home directory; none without fuzzy matching; a lyric is the parse of a file or of empty text |
| Resolver.ExactLookup | src/serve.rs:172-176 | without fuzzy matching, the lyric is the parse of `<dir>/<stem>.lrc` when readable, else of empty text |
| Resolver.FuzzyLookup | src/serve.rs:148-171 | with fuzzy matching, an unreadable directory or an unreadable entry in it panics; otherwise the best-ranked `.lrc` file of the index is parsed when it can be read, and empty text otherwise |
| Resolver.NoFileNoLyric | src/serve.rs:145-147 | a track without a URL, or whose URL names no file, gets the parse of empty text |
| Resolver.ExactFileIndexed | src/serve.rs:153-173 | the exact file, when listed, is in the fuzzy index under the same stem |
| Engine.HandleEvent | src/serve.rs:197-213 | no event: no break and nothing changes; any event breaks the player loop; toggle flips `fuzzy`; a name change sets the player name |
| Engine.ToggleTwice | src/serve.rs:206-208 | two toggles restore the configuration |
| Engine.Schedule | src/serve.rs:98-118 | the metadata is checked exactly at count 51; events are taken exactly at counts 11..50; the next count stays in 1..51 |
| Engine.CountAfter | src/serve.rs:94-133 | the count never exceeds 51 |
| Engine.CountAfterClosedForm | src/serve.rs:94-133 | the count after n ticks is 0 for n = 0, else ((n - 1) mod 51) + 1 |
| Engine.Cadence | src/serve.rs:98-118 | metadata is re-read exactly on ticks that are positive multiples of 51; events are drained on 40 of every 51 ticks |
| Engine.ResolveLyric | src/serve.rs:84-92 | for `feeluown` the lyric is the parse of the `fuo show` output when there is a song id and the parse of empty text otherwise; for any other player it is `find_lyric` |
| Engine.FeeluownIgnoresFiles | src/serve.rs:84-89 | for `feeluown`, lyric files and metadata play no part |
| Engine.Ranked | src/serve.rs:67-77 | the players inserted as (identity, bus-name part) pairs and searched for the configured name, best first; PlayerStep states what the first of them leads to |
| Engine.FinderRetries | src/serve.rs:48-49 | while `PlayerFinder::new()` keeps failing, the engine stays in the finder loop with nothing changed |
| Engine.PlayerStep | src/serve.rs:50-96 | an event goes back to the finder with the event applied; without one the pass never reaches the finder; a failing `find_all` halts; no ranked player, a failing `find_by_name`, `get_metadata` or `get_position`, and (with info logging) an untitled track retry the player loop; a panicking lyric lookup halts, and a halt has one of these causes; tracking starts exactly when everything is found, with count 0 and those values |
| Engine.UntitledTrack | src/serve.rs:79-83 | a track without a title is retried only when info-level logging is on; otherwise it is tracked |
| Engine.TrackChanged | src/serve.rs:101-103 | the song has changed only when the title and the artists both differ; MetadataCheck and SameArtistsNotNoticed show the consequence |
| Engine.TrackStep | src/serve.rs:97-135 | a tick keeps the session's track and lyric, advances the count by the schedule, publishes at the position estimated from the last sample and halts only on a duration overflow; at count 51 a failed metadata read or a changed track returns to the player loop; otherwise it leaves only on an event (to the finder, with the event applied) or a failed position read; the configuration is kept unless an event changes it; only a non-empty line content is written |
| Engine.StepInv | src/serve.rs:45-135 | one pass keeps the cell non-empty, the count within 51 and the lyric directory |
| Engine.RunInv | src/serve.rs:45-135 | every run keeps the cell non-empty, the count within 51 and the lyric directory |
| Engine.StartInv | src/serve.rs:45 | the engine starts in the finder loop with "No lyric" in the cell, which meets the invariant |
| Engine.Step | src/serve.rs:48-135 | one pass of the loop the engine is in (finder, player or tracking); a halted engine stays as it is; StepInv states what a pass keeps |
| Engine.Run | src/serve.rs:48-135 | the engine after a sequence of passes, one world answer per pass; RunInv, NoPlayersNoTracking and ToggleFuzzyReResolves are about it |
| Engine.HaltedIsFinal | src/serve.rs:58 | after a panic the engine does nothing more and the cell is frozen |
| Engine.NoPlayersNoTracking | src/serve.rs:71-77 | while no player is available, the engine never tracks and never writes the cell |
| Engine.MetadataCheck | src/serve.rs:98-107 | at count 51 the session ends exactly when title and artists both changed; otherwise the count restarts |
| Engine.SameArtistsNotNoticed | src/serve.rs:101-105 | a new song by the same artists keeps the old lyric |
| Engine.EventLeavesTracking | src/serve.rs:108-114 | an event during tracking goes back to the finder with the event applied and the cell untouched |
| Engine.ToggleFuzzyReResolves | src/serve.rs:48-114 | toggling fuzzy matching while tracking resolves the same track's lyric again, with the flag flipped |

## Left out

- Threads, the `RwLock`, the `mpsc` channel, `sleep` and `Instant` are left out. A pass of a loop receives the event, the clock reading and the answers of the player as a `World`.
- `mpris` (the player finder, players, metadata and position) is a parameter.
- `SimSearch` is an uninterpreted `Ranker`. Only the pairs inserted into it and the query are modelled.
- `amll_lyric::lrc::parse_lrc` is an uninterpreted `Parser`.
- `dirs::home_dir`, `read_dir` and `read_to_string` are a map of readable files and directory listings. A file that is not valid UTF-8 counts as unreadable, which matches the `if let Ok` of `find_lyric`.
- `FuoClient::status` and the `fuo show` command are inputs.
- Engine.ResolveLyric: the `unwrap`s on running `fuo` (src/fuo.rs:14 and 33) panic when the command cannot be started; the model takes the command output as given, so the `feeluown` branch never fails.
- Fuo.FuoLyric: slicing after `:` in src/fuo.rs uses a char position as a byte index. With non-ASCII text before the colon, `FuoClient::lyric` cuts at the wrong place or panics. The model works on chars and takes the text after the `:`.
- `String::from_utf8_lossy` replacement of invalid bytes is not modelled. The command output is taken as text.
- Text.ReplaceAll: `replace` with an empty pattern, which puts the replacement between every two characters, is not modelled; both patterns the core replaces (`&apos;` and `file://`) are non-empty.
- Paths.FileName: paths are Unix paths held as strings. Non-UTF-8 file names (`to_str()` returning `None`) are not modelled.
- The log output (`info!`, `error!`, `dbg!`) is left out; only whether info-level logging is enabled is an input. So is the one-second sleep before each retry.
- The Spotify client, the lyric fetcher, the configuration file, the window and settings UI, `utils.rs` and `main.rs` are not part of this model.

=== FILE: engine.dfy ===
/**
  The background engine of `serve` in src/serve.rs as a state machine. The
  three nested labelled loops are the stages `FinderLoop` (`'finder`),
  `PlayerLoop` (`'player`) and `TrackingLoop` (the inner tick loop); a panic
  of the engine thread is the final stage `Halted`. Each step takes what the
  outside world answers during one pass of the loop body (a `World`), so
  threads, channels, clocks and the media-player bus are all parameters.
 */
module Engine {
  import opened Wrappers
  import opened Lyric
  import opened Resolver
  import opened Selection
  import opened Fuo

  /** The part of `Config` the engine reads; its own copy, changed only by events. */
  datatype Config = Config(playerName: string, lyricDir: string, fuzzy: bool)

  /** A configuration event sent by the settings window. */
  datatype Event = ChangePlayer(name: string) | ToggleFuzzy

  /** `BreakLabel`: `BreakPlayer` tells the caller to leave the player loop. */
  datatype BreakLabel = BreakPlayer | NoBreak

  /** `handle_event`: applies the received event, if any, to the engine's configuration. */
  function HandleEvent(event: Option<Event>, config: Config): (r: (BreakLabel, Config))
    ensures event.None? ==> r == (NoBreak, config)
    ensures event.Some? ==> r.0 == BreakPlayer
    ensures event == Some(ToggleFuzzy) ==> r.1 == config.(fuzzy := !config.fuzzy)
    ensures event.Some? && event.value.ChangePlayer? ==> r.1 == config.(playerName := event.value.name)
    ensures r.1.lyricDir == config.lyricDir
  {
    match event
    case None => (NoBreak, config)
    case Some(ChangePlayer(name)) => (BreakPlayer, config.(playerName := name))
    case Some(ToggleFuzzy) => (BreakPlayer, config.(fuzzy := !config.fuzzy))
  }

  /** Two `ToggleFuzzy` events restore the configuration. */
  lemma ToggleTwice(config: Config)
    ensures HandleEvent(Some(ToggleFuzzy), HandleEvent(Some(ToggleFuzzy), config).1).1 == config
  {
  }

  // ---------------------------------------------------------------------------
  // The tick counter
  // ---------------------------------------------------------------------------

  /** What a tick that stays in the tracking loop does with `count`. */
  datatype TickPlan = TickPlan(checkMetadata: bool, drain: bool, next: nat)

  /**
    `count > 50`: re-read the metadata, then restart the count at 0;
    `count > 10` (after that): take one event and re-sample the position;
    finally `count += 1`.
   */
  function Schedule(count: nat): (plan: TickPlan)
    ensures count <= 51 ==> 1 <= plan.next <= 51
    ensures count <= 51 ==> (plan.checkMetadata <==> count == 51)
    ensures count <= 51 ==> (plan.drain <==> 11 <= count <= 50)
  {
    var check := count > 50;
    var c := if check then 0 else count;
    TickPlan(check, c > 10, c + 1)
  }

  /** The count at the top of the `n`-th tick of a tracking session. */
  function CountAfter(n: nat): (c: nat)
    ensures c <= 51
  {
    if n == 0 then 0 else Schedule(CountAfter(n - 1)).next
  }

  /** Closed form of the count: it runs 0, 1, …, 51, 1, …, 51, … */
  lemma {:induction false} CountAfterClosedForm(n: nat)
    ensures CountAfter(n) == if n == 0 then 0 else (n - 1) % 51 + 1
  {
    if n > 1 {
      CountAfterClosedForm(n - 1);
      ModSucc(n - 2);
    }
  }

  /** Counting modulo 51: the successor's remainder wraps from 50 to 0. */
  lemma ModSucc(m: nat)
    ensures (m + 1) % 51 == if m % 51 == 50 then 0 else m % 51 + 1
  {
    var q, r := m / 51, m % 51;
    assert m == 51 * q + r;
    if r == 50 {
      assert m + 1 == 51 * (q + 1);
    } else {
      assert m + 1 == 51 * q + (r + 1);
    }
  }

  /**
    Over a session the metadata is re-read on ticks 51, 102, 153, …, and
    events are taken and the position re-sampled on the ticks whose count is
    11 through 50: forty ticks out of every fifty-one.
   */
  lemma Cadence(n: nat)
    ensures Schedule(CountAfter(n)).checkMetadata <==> n > 0 && n % 51 == 0
    ensures Schedule(CountAfter(n)).drain <==> n > 0 && 11 <= (n - 1) % 51 + 1 <= 50
  {
    CountAfterClosedForm(n);
    if n > 0 {
      WrapPoint(n);
    }
  }

  lemma WrapPoint(n: nat)
    requires n > 0
    ensures (n - 1) % 51 == 50 <==> n % 51 == 0
  {
    ModSucc(n - 1);
  }

  // ---------------------------------------------------------------------------
  // Engine state
  // ---------------------------------------------------------------------------

  /** A player as the finder lists it: `identity()` and `bus_name_player_name_part()`. */
  datatype PlayerInfo = PlayerInfo(identity: string, busName: string)

  /** The local state of the tracking loop. */
  datatype Session = Session(
    player: PlayerInfo,
    metadata: Metadata,       // the metadata read when the session started
    lyric: Lyric,
    count: nat,
    positionNanos: nat)       // the last sampled playback position

  datatype Stage = FinderLoop | PlayerLoop | TrackingLoop(session: Session) | Halted

  /** The engine: where it is, its configuration and the shared line cell. */
  datatype State = State(stage: Stage, config: Config, cell: string)

  const NoLyric: string := "No lyric"

  function Start(config: Config): State {
    State(FinderLoop, config, NoLyric)
  }

  /**
    What the world answers during one pass of the player loop. The title
    check of the player loop sits inside an `info!` argument, which the `log`
    macros evaluate only when info-level logging is enabled (`RUST_LOG`);
    `infoLogging` says whether it is.
   */
  datatype PlayerWorld = PlayerWorld(
    infoLogging: bool,
    event: Option<Event>,
    players: Result<seq<PlayerInfo>>,       // `find_all()`; an error panics
    byName: string -> Result<PlayerInfo>,   // `find_by_name(identity)`
    metadata: Result<Metadata>,             // `get_metadata()`
    position: Result<nat>,                  // `get_position()`, in nanoseconds
    sources: LyricSources)

  /** What the world answers during one tick of the tracking loop. */
  datatype TickWorld = TickWorld(
    metadata: Result<Metadata>,             // `get_metadata()` (read only when the count is over 50)
    event: Option<Event>,                   // `try_recv()` (read only when the count is over 10)
    position: Result<nat>,                  // `get_position()` (read only when the count is over 10)
    elapsedNanos: nat)                      // `instant.elapsed()`

  datatype World = World(finderOk: bool, player: PlayerWorld, tick: TickWorld)

  /** The index of players: each identity under its bus-name label. */
  function PlayerEntries(players: seq<PlayerInfo>): seq<(string, string)> {
    seq(|players|, k requires 0 <= k < |players| => (players[k].identity, players[k].busName))
  }

  /** The identities the index ranks for the configured player name, best first. */
  function Ranked(config: Config, players: seq<PlayerInfo>, rank: Ranker): seq<string> {
    rank(PlayerEntries(players), config.playerName)
  }

  /**
    The lyric for a new track: FeelUOwn's own lyric when the configured
    player is named exactly `feeluown`, otherwise `find_lyric`.
   */
  function ResolveLyric(config: Config, md: Metadata, src: LyricSources): (r: Result<Lyric>)
    ensures config.playerName == "feeluown" ==> r.Ok?
    ensures config.playerName == "feeluown" && FuoLyric(src.fuoStatus, src.fuoShow).None? ==>
              r == Ok(FromStr(src.parse, ""))
    ensures config.playerName == "feeluown" && FuoLyric(src.fuoStatus, src.fuoShow).Some? ==>
              r == Ok(FromStr(src.parse, FuoLyric(src.fuoStatus, src.fuoShow).value))
    ensures config.playerName != "feeluown" ==> r == FindLyric(md, config.lyricDir, config.fuzzy, src)
  {
    if config.playerName == "feeluown" then
      match FuoLyric(src.fuoStatus, src.fuoShow)
      case Some(content) => Ok(FromStr(src.parse, content))
      case None => Ok(FromStr(src.parse, ""))
    else FindLyric(md, config.lyricDir, config.fuzzy, src)
  }

  /** For FeelUOwn the lyric comes from `fuo` alone: files and metadata do not matter. */
  lemma FeeluownIgnoresFiles(config: Config, md: Metadata, md': Metadata, src: LyricSources, src': LyricSources)
    requires config.playerName == "feeluown"
    requires src.fuoStatus == src'.fuoStatus && src.fuoShow == src'.fuoShow && src.parse == src'.parse
    ensures ResolveLyric(config, md, src) == ResolveLyric(config, md', src')
  {
  }

  // ---------------------------------------------------------------------------
  // Steps
  // ---------------------------------------------------------------------------

  /** One pass of the `'finder` loop: `PlayerFinder::new()` succeeds or is retried. */
  function FinderStep(config: Config, cell: string, finderOk: bool): State {
    State(if finderOk then PlayerLoop else FinderLoop, config, cell)
  }

  /**
    One pass of the `'player` loop: handle an event (back to the finder),
    list and rank the players, take the best one, read its metadata, resolve
    the lyric and sample the position. A failure retries the player loop; a
    panic halts the engine.
   */
  function PlayerStep(config: Config, cell: string, w: PlayerWorld): (r: State)
    ensures r.cell == cell
    ensures r.config == HandleEvent(w.event, config).1
    ensures w.event.Some? ==> r.stage == FinderLoop
    ensures w.event.None? && w.players.Ok? && |Ranked(config, w.players.value, w.sources.rank)| == 0 ==>
              r.stage == PlayerLoop
    ensures r.stage.TrackingLoop? ==> w.event.None? && w.players.Ok?
    ensures r.stage.TrackingLoop? ==>
              && var s := r.stage.session;
              && var ranked := Ranked(config, w.players.value, w.sources.rank);
              && |ranked| > 0 && w.byName(ranked[0]) == Ok(s.player)
              && w.metadata == Ok(s.metadata) && (w.infoLogging ==> s.metadata.title.Some?)
              && ResolveLyric(config, s.metadata, w.sources) == Ok(s.lyric)
              && w.position == Ok(s.positionNanos) && s.count == 0
    ensures r.stage == Halted ==>
              w.players.Err? || (w.metadata.Ok? && ResolveLyric(config, w.metadata.value, w.sources).Err?)
    ensures r.stage == Halted && w.players.Ok? ==>
              var ranked := Ranked(config, w.players.value, w.sources.rank);
              |ranked| > 0 && w.byName(ranked[0]).Ok? && w.metadata.Ok?
    ensures w.event.None? ==> r.stage != FinderLoop
    ensures w.event.None? && w.players.Err? ==> r.stage == Halted
    ensures w.event.None? && w.players.Ok? ==>
              var ranked := Ranked(config, w.players.value, w.sources.rank);
              && (|ranked| > 0 && w.byName(ranked[0]).Err? ==> r.stage == PlayerLoop)
              && (|ranked| > 0 && w.byName(ranked[0]).Ok? && w.metadata.Err? ==> r.stage == PlayerLoop)
              && (|ranked| > 0 && w.byName(ranked[0]).Ok? && w.metadata.Ok? &&
                  !(w.infoLogging && w.metadata.value.title.None?) &&
                  ResolveLyric(config, w.metadata.value, w.sources).Ok? && w.position.Err? ==>
                    r.stage == PlayerLoop)
              && (|ranked| > 0 && w.byName(ranked[0]).Ok? && w.metadata.Ok? &&
                  !(w.infoLogging && w.metadata.value.title.None?) &&
                  ResolveLyric(config, w.metadata.value, w.sources).Err? ==>
                    r.stage == Halted)
    ensures w.event.None? && w.players.Ok? && w.metadata.Ok? ==>
              var ranked := Ranked(config, w.players.value, w.sources.rank);
              var md := w.metadata.value;
              && (|ranked| > 0 && w.byName(ranked[0]).Ok? && (w.infoLogging ==> md.title.Some?) &&
                  ResolveLyric(config, md, w.sources).Ok? && w.position.Ok? ==>
                    r.stage == TrackingLoop(Session(w.byName(ranked[0]).value, md,
                                                    ResolveLyric(config, md, w.sources).value, 0, w.position.value)))
              && (|ranked| > 0 && w.byName(ranked[0]).Ok? && w.infoLogging && md.title.None? ==>
                    r.stage == PlayerLoop)
  {
    var (brk, cfg) := HandleEvent(w.event, config);
    if brk == BreakPlayer then State(FinderLoop, cfg, cell)
    else
      match w.players
      case Err(_) => State(Halted, config, cell)
      case Ok(players) =>
        var ranked := Ranked(config, players, w.sources.rank);
        if |ranked| == 0 then State(PlayerLoop, config, cell)   // "No player"
        else
          match w.byName(ranked[0])
          case Err(_) => State(PlayerLoop, config, cell)
          case Ok(player) =>
            match w.metadata
            case Err(_) => State(PlayerLoop, config, cell)
            case Ok(md) =>
              if w.infoLogging && md.title.None? then State(PlayerLoop, config, cell)   // "Song doesn't have a title"
              else
                match ResolveLyric(config, md, w.sources)
                case Err(_) => State(Halted, config, cell)
                case Ok(lrc) =>
                  match w.position
                  case Err(_) => State(PlayerLoop, config, cell)
                  case Ok(p) => State(TrackingLoop(Session(player, md, lrc, 0, p)), config, cell)
  }

  /** The song has changed only when the title and the artists both differ. */
  predicate TrackChanged(before: Metadata, after: Metadata) {
    after.title != before.title && after.artists != before.artists
  }

  /**
    One tick of the tracking loop: the metadata check, the event and
    re-sample, the position estimate and the publish of the current line.
   */
  function TrackStep(config: Config, cell: string, s: Session, w: TickWorld): (r: State)
    ensures r.config.lyricDir == config.lyricDir
    ensures r.stage.TrackingLoop? ==>
              && r.stage.session.count == Schedule(s.count).next
              && r.stage.session.player == s.player
              && r.stage.session.metadata == s.metadata
              && r.stage.session.lyric == s.lyric
              && r.config == config
              && (if Schedule(s.count).drain then w.position == Ok(r.stage.session.positionNanos)
                  else r.stage.session.positionNanos == s.positionNanos)
              && EstimatePos(r.stage.session.positionNanos, w.elapsedNanos).Some?
              && r.cell == Publish(s.lyric.lines, EstimatePos(r.stage.session.positionNanos, w.elapsedNanos).value, cell)
    ensures r.stage == Halted ==>
              if Schedule(s.count).drain then w.position.Ok? && EstimatePos(w.position.value, w.elapsedNanos).None?
              else EstimatePos(s.positionNanos, w.elapsedNanos).None?
    ensures r.stage == FinderLoop ==> Schedule(s.count).drain && w.event.Some?
    ensures r.stage == FinderLoop ==> r.config == HandleEvent(w.event, config).1
    ensures r.stage != FinderLoop ==> r.config == config
    ensures Schedule(s.count).checkMetadata && (w.metadata.Err? || TrackChanged(s.metadata, w.metadata.value)) ==>
              r.stage == PlayerLoop
    ensures r.stage == PlayerLoop ==>
              || (Schedule(s.count).checkMetadata && (w.metadata.Err? || TrackChanged(s.metadata, w.metadata.value)))
              || (Schedule(s.count).drain && w.position.Err?)
    ensures r.cell == cell ||
            (r.stage.TrackingLoop? && r.cell != "" &&
             exists k :: 0 <= k < |s.lyric.lines| && r.cell == s.lyric.lines[k].content)
  {
    var plan := Schedule(s.count);
    if plan.checkMetadata && (w.metadata.Err? || TrackChanged(s.metadata, w.metadata.value)) then
      State(PlayerLoop, config, cell)
    else
      var (brk, cfg) := if plan.drain then HandleEvent(w.event, config) else (NoBreak, config);
      if brk == BreakPlayer then State(FinderLoop, cfg, cell)
      else if plan.drain && w.position.Err? then State(PlayerLoop, config, cell)
      else
        var position := if plan.drain then w.position.value else s.positionNanos;
        match EstimatePos(position, w.elapsedNanos)
        case None => State(Halted, config, cell)
        case Some(pos) =>
          PublishFromLines(s.lyric.lines, pos, cell);
          State(TrackingLoop(s.(count := plan.next, positionNanos := position)), config,
                Publish(s.lyric.lines, pos, cell))
  }

  /** One pass of whichever loop the engine is in; a halted engine does nothing. */
  function Step(st: State, w: World): State {
    match st.stage
    case FinderLoop => FinderStep(st.config, st.cell, w.finderOk)
    case PlayerLoop => PlayerStep(st.config, st.cell, w.player)
    case TrackingLoop(s) => TrackStep(st.config, st.cell, s, w.tick)
    case Halted => st
  }

  /** The engine after a sequence of passes. */
  function Run(st: State, ws: seq<World>): State
    decreases |ws|
  {
    if |ws| == 0 then st else Run(Step(st, ws[0]), ws[1..])
  }

  // ---------------------------------------------------------------------------
  // Properties of runs
  // ---------------------------------------------------------------------------

  /** The cell is never empty and the tick counter stays within 0..51. */
  predicate Inv(st: State) {
    && st.cell != ""
    && (st.stage.TrackingLoop? ==> st.stage.session.count <= 51)
  }

  lemma StepInv(st: State, w: World)
    requires Inv(st)
    ensures Inv(Step(st, w))
    ensures Step(st, w).config.lyricDir == st.config.lyricDir
  {
    if st.stage.TrackingLoop? {
      var s := st.stage.session;
      var r := TrackStep(st.config, st.cell, s, w.tick);
      if r.stage.TrackingLoop? && s.lyric.lines != [] {
        var plan := Schedule(s.count);
        var position := if plan.drain then w.tick.position.value else s.positionNanos;
        var pos := EstimatePos(position, w.tick.elapsedNanos);
        if pos.Some? {
          PublishNeverBlanks(s.lyric.lines, pos.value, st.cell);
        }
      }
    }
  }

  /** Every run from the start keeps the invariant and the lyric directory. */
  lemma {:induction false} RunInv(st: State, ws: seq<World>)
    requires Inv(st)
    ensures Inv(Run(st, ws))
    ensures Run(st, ws).config.lyricDir == st.config.lyricDir
    decreases |ws|
  {
    if |ws| > 0 {
      StepInv(st, ws[0]);
      RunInv(Step(st, ws[0]), ws[1..]);
    }
  }

  lemma StartInv(config: Config)
    ensures Start(config).stage == FinderLoop && Start(config).cell == NoLyric
    ensures Inv(Start(config))
  {
  }

  /**
    While `PlayerFinder::new()` keeps failing the engine stays in the finder
    loop: nothing about it changes, the cell included.
   */
  lemma {:induction false} FinderRetries(st: State, ws: seq<World>)
    requires st.stage == FinderLoop
    requires forall k :: 0 <= k < |ws| ==> !ws[k].finderOk
    ensures Run(st, ws) == st
    decreases |ws|
  {
    if |ws| > 0 {
      FinderRetries(Step(st, ws[0]), ws[1..]);
    }
  }

  /**
    Without info-level logging the title is never checked: a track without
    a title is tracked like any other. With it, such a track is retried.
   */
  lemma UntitledTrack(config: Config, cell: string, w: PlayerWorld, md: Metadata)
    requires md.title.None?
    requires w.event.None? && w.players.Ok? && w.metadata == Ok(md) && w.position.Ok?
    requires var ranked := Ranked(config, w.players.value, w.sources.rank);
             |ranked| > 0 && w.byName(ranked[0]).Ok?
    requires ResolveLyric(config, md, w.sources).Ok?
    ensures w.infoLogging ==> PlayerStep(config, cell, w).stage == PlayerLoop
    ensures !w.infoLogging ==> PlayerStep(config, cell, w).stage.TrackingLoop?
  {
  }

  /** A halted engine stays halted, and its cell is frozen. */
  lemma {:induction false} HaltedIsFinal(st: State, ws: seq<World>)
    requires st.stage == Halted
    ensures Run(st, ws) == st
    decreases |ws|
  {
    if |ws| > 0 {
      HaltedIsFinal(Step(st, ws[0]), ws[1..]);
    }
  }

  /** A world in which the finder works but lists no player, and the empty index matches nothing. */
  ghost predicate NoPlayers(w: World) {
    && w.finderOk
    && w.player.players == Ok([])
    && forall q :: w.player.sources.rank([], q) == []
  }

  /**
    While no player is available the engine never reaches tracking and never
    writes the cell: from the start it keeps showing "No lyric".
   */
  lemma {:induction false} NoPlayersNoTracking(st: State, ws: seq<World>)
    requires st.stage == FinderLoop || st.stage == PlayerLoop
    requires forall k :: 0 <= k < |ws| ==> NoPlayers(ws[k])
    ensures Run(st, ws).stage == FinderLoop || Run(st, ws).stage == PlayerLoop
    ensures Run(st, ws).cell == st.cell
    decreases |ws|
  {
    if |ws| > 0 {
      var w := ws[0];
      if st.stage == PlayerLoop && w.player.event.None? {
        assert PlayerEntries([]) == [];
        assert Ranked(st.config, [], w.player.sources.rank) == [];
      }
      NoPlayersNoTracking(Step(st, w), ws[1..]);
    }
  }

  /**
    The metadata check: with the count at 51 and the metadata read, the
    session goes back to the player loop exactly when title and artists both
    changed; otherwise tracking goes on with the count restarted (no event is
    taken on that tick).
   */
  lemma MetadataCheck(config: Config, cell: string, s: Session, w: TickWorld)
    requires s.count == 51 && w.metadata.Ok?
    requires EstimatePos(s.positionNanos, w.elapsedNanos).Some?
    ensures TrackChanged(s.metadata, w.metadata.value) ==> TrackStep(config, cell, s, w).stage == PlayerLoop
    ensures !TrackChanged(s.metadata, w.metadata.value) ==>
              && TrackStep(config, cell, s, w).stage.TrackingLoop?
              && TrackStep(config, cell, s, w).stage.session.count == 1
              && TrackStep(config, cell, s, w).config == config
  {
  }

  /** A new song by the same artists is not noticed: the old lyric keeps being tracked. */
  lemma SameArtistsNotNoticed(config: Config, cell: string, s: Session, w: TickWorld)
    requires s.count == 51 && w.metadata.Ok?
    requires w.metadata.value.artists == s.metadata.artists
    requires EstimatePos(s.positionNanos, w.elapsedNanos).Some?
    ensures TrackStep(config, cell, s, w).stage.TrackingLoop?
    ensures TrackStep(config, cell, s, w).stage.session.lyric == s.lyric
  {
  }

  /**
    An event taken during tracking leaves the player loop (`break 'player`):
    the engine goes back to the finder with the event applied and the cell
    untouched.
   */
  lemma EventLeavesTracking(config: Config, cell: string, s: Session, w: TickWorld)
    requires 11 <= s.count <= 50 && w.event.Some?
    ensures TrackStep(config, cell, s, w) == State(FinderLoop, HandleEvent(w.event, config).1, cell)
  {
  }

  /**
    `ToggleFuzzy` during tracking re-resolves the lyric of the same track
    with the flag flipped: tracking, then the finder, then the player loop
    with the same answers, is tracking again with the new lyric.
   */
  lemma ToggleFuzzyReResolves(st: State, tw: TickWorld, finder: World, pw: PlayerWorld)
    requires st.stage.TrackingLoop? && 11 <= st.stage.session.count <= 50
    requires tw.event == Some(ToggleFuzzy)
    requires finder.finderOk
    requires pw.event.None? && pw.players.Ok?
    requires var ranked := Ranked(st.config, pw.players.value, pw.sources.rank);
             |ranked| > 0 && pw.byName(ranked[0]).Ok?
    requires pw.metadata == Ok(st.stage.session.metadata) && st.stage.session.metadata.title.Some?
    requires pw.position.Ok?
    requires ResolveLyric(st.config.(fuzzy := !st.config.fuzzy), st.stage.session.metadata, pw.sources).Ok?
    ensures var w1 := World(finder.finderOk, finder.player, tw);
            var w3 := World(finder.finderOk, pw, tw);
            var r := Run(st, [w1, finder, w3]);
            && r.config == st.config.(fuzzy := !st.config.fuzzy)
            && r.stage.TrackingLoop?
            && r.stage.session.metadata == st.stage.session.metadata
            && Ok(r.stage.session.lyric) ==
                 ResolveLyric(st.config.(fuzzy := !st.config.fuzzy), st.stage.session.metadata, pw.sources)
            && r.cell == st.cell
  {
    var w1 := World(finder.finderOk, finder.player, tw);
    var w3 := World(finder.finderOk, pw, tw);
    var flipped := st.config.(fuzzy := !st.config.fuzzy);
    var s1 := Step(st, w1);
    assert s1 == State(FinderLoop, flipped, st.cell);
    var s2 := Step(s1, finder);
    assert s2 == State(PlayerLoop, flipped, st.cell);
    assert Ranked(flipped, pw.players.value, pw.sources.rank) == Ranked(st.config, pw.players.value, pw.sources.rank);
    var s3 := Step(s2, w3);
    assert s3.stage.TrackingLoop?;
    assert Run(s2, [w3]) == Run(s3, []) == s3;
    assert Run(s1, [finder, w3]) == Run(s2, [finder, w3][1..]);
    assert [finder, w3][1..] == [w3];
    assert Run(st, [w1, finder, w3]) == Run(s1, [w1, finder, w3][1..]);
    assert [w1, finder, w3][1..] == [finder, w3];
  }
}

=== FILE: fuo.dfy ===
/**
  The text handling of `FuoClient::lyric` in src/fuo.rs: the FeelUOwn
  `fuo status` output is scanned for the current song's id, which is then
  asked for its lyric with `fuo show <id>/lyric`. Running `fuo` is a
  parameter (`show`), and the status text is an input.
 */
module Fuo {
  import opened Wrappers
  import opened Text

  const SongTag: string := "song:"
  const LyricSuffix: string := "/lyric"

  /** The concatenation, in order and without separator, of the lines holding `song:`. */
  function SongLines(ls: seq<string>): string {
    if |ls| == 0 then ""
    else (if Contains(ls[0], SongTag) then ls[0] else "") + SongLines(ls[1..])
  }

  /** The collected `song:` lines of a status text. */
  function SongLine(status: string): string {
    SongLines(Lines(status))
  }

  /**
    The song id: after the first `:` of the collected line, trimmed, up to the
    first tab. `None` when the collected line has no `:`.
   */
  function SongId(status: string): (id: Option<string>)
    ensures id.None? <==> ':' !in SongLine(status)
    ensures id.Some? ==> '\t' !in id.value
    ensures id.Some? && |id.value| > 0 ==> !IsWhitespace(id.value[0])
  {
    IdAfterColon(SongLine(status))
  }

  /** The id field of a collected line: after its first `:`, trimmed, up to the first tab. */
  function IdAfterColon(line: string): (id: Option<string>)
    ensures id.None? <==> ':' !in line
    ensures id.Some? ==> '\t' !in id.value
    ensures id.Some? && |id.value| > 0 ==> !IsWhitespace(id.value[0])
  {
    match IndexOf(line, ':')
    case None => None
    case Some(i) =>
      var t := Trim(line[i + 1..]);
      var id := TakeUntil(t, '\t');
      assert |id| > 0 ==> id[0] == t[0];
      Some(id)
  }

  /** The argument of `fuo show`: the id followed by `/lyric`. */
  function ShowArgument(id: string): string {
    id + LyricSuffix
  }

  /** `FuoClient::lyric`: the output of `fuo show <id>/lyric`, when there is a song id. */
  function FuoLyric(status: string, show: string -> string): (r: Option<string>)
    ensures r.Some? <==> ':' in SongLine(status)
    ensures r.Some? ==> exists id :: SongId(status) == Some(id) && r.value == show(id + "/lyric")
  {
    match SongId(status)
    case None => None
    case Some(id) => Some(show(ShowArgument(id)))
  }

  /** Collecting distributes over concatenation: lines keep their original order. */
  lemma {:induction false} SongLinesAppend(a: seq<string>, b: seq<string>)
    ensures SongLines(a + b) == SongLines(a) + SongLines(b)
  {
    if |a| > 0 {
      assert (a + b)[1..] == a[1..] + b;
      SongLinesAppend(a[1..], b);
    } else {
      assert a + b == b;
    }
  }

  /** Lines without `song:` contribute nothing. */
  lemma {:induction false} SongLinesOthers(ls: seq<string>)
    requires forall k :: 0 <= k < |ls| ==> !Contains(ls[k], SongTag)
    ensures SongLines(ls) == ""
  {
    if |ls| > 0 {
      SongLinesOthers(ls[1..]);
    }
  }

  /** A status without any `song:` line has no song id, and `fuo show` is not run. */
  lemma NoSongLineNoId(status: string)
    requires forall k :: 0 <= k < |Lines(status)| ==> !Contains(Lines(status)[k], SongTag)
    ensures SongId(status) == None
    ensures forall show: string -> string :: FuoLyric(status, show) == None
  {
    SongLinesOthers(Lines(status));
  }

  /** What the song line of a status text looks like: `song:`, blanks, the id, a tab, the rest. */
  function StatusSongLine(gap: string, id: string, rest: string): string {
    SongTag + gap + id + "\t" + rest
  }

  /**
    Round trip: in a status text whose one `song:` line is
    `song:<blanks><id>\t<rest>`, the extracted id is `id` again, and `fuo show`
    is asked for `<id>/lyric`.
   */
  lemma {:induction false} SongIdOfStatus(before: seq<string>, gap: string, id: string, rest: string, after: seq<string>)
    requires forall k :: 0 <= k < |before| ==> PlainLine(before[k]) && !Contains(before[k], SongTag)
    requires forall k :: 0 <= k < |after| ==> PlainLine(after[k]) && !Contains(after[k], SongTag)
    requires AllWhitespace(gap) && '\n' !in gap
    requires id != "" && !IsWhitespace(id[0]) && !IsWhitespace(id[|id| - 1])
    requires '\t' !in id && '\n' !in id
    requires '\n' !in rest && (|rest| > 0 ==> rest[|rest| - 1] != '\r')
    ensures SongId(Terminated(before + [StatusSongLine(gap, id, rest)] + after)) == Some(id)
  {
    var line := StatusSongLine(gap, id, rest);
    assert line[|line| - 1] != '\r' by {
      if |rest| == 0 {
        assert line[|line| - 1] == '\t';
      } else {
        assert line[|line| - 1] == rest[|rest| - 1];
      }
    }
    assert OccursAt(line, SongTag, 0);
    SongLineOfStatus(before, line, after);
    IdOfSongLine(gap, id, rest);
  }

  /** The collected line of a status text with one `song:` line is that line. */
  lemma {:induction false} SongLineOfStatus(before: seq<string>, line: string, after: seq<string>)
    requires forall k :: 0 <= k < |before| ==> PlainLine(before[k]) && !Contains(before[k], SongTag)
    requires forall k :: 0 <= k < |after| ==> PlainLine(after[k]) && !Contains(after[k], SongTag)
    requires PlainLine(line) && Contains(line, SongTag)
    ensures SongLine(Terminated(before + [line] + after)) == line
  {
    var ls := before + [line] + after;
    assert Lines(Terminated(ls)) == ls by {
      assert forall k :: 0 <= k < |ls| ==> PlainLine(ls[k]);
      LinesOfTerminated(ls);
    }
    assert SongLines(before) == "" by {
      SongLinesOthers(before);
    }
    assert SongLines(after) == "" by {
      SongLinesOthers(after);
    }
    OneSongLine(before, line, after);
  }

  /** Collecting from lines of which exactly one holds `song:` gives that line. */
  lemma OneSongLine(before: seq<string>, line: string, after: seq<string>)
    requires SongLines(before) == "" && SongLines(after) == ""
    requires Contains(line, SongTag)
    ensures SongLines(before + [line] + after) == line
  {
    SongLinesAppend(before + [line], after);
    SongLinesAppend(before, [line]);
    assert SongLines([line]) == line + SongLines([]);
  }

  /** The id field of `song:<blanks><id>\t<rest>` is `id`. */
  lemma {:induction false} IdOfSongLine(gap: string, id: string, rest: string)
    requires AllWhitespace(gap)
    requires id != "" && !IsWhitespace(id[0]) && !IsWhitespace(id[|id| - 1])
    requires '\t' !in id
    ensures IdAfterColon(StatusSongLine(gap, id, rest)) == Some(id)
  {
    var line := StatusSongLine(gap, id, rest);
    var tail := gap + id + "\t" + rest;
    assert line == "song" + [':'] + tail;
    IndexOfAfter("song", ':', tail);
    assert line[5..] == tail;
    IdField(gap, id, rest);
  }

  lemma {:induction false} IdField(gap: string, id: string, rest: string)
    requires AllWhitespace(gap)
    requires id != "" && !IsWhitespace(id[0]) && !IsWhitespace(id[|id| - 1])
    requires '\t' !in id
    ensures TakeUntil(Trim(gap + id + "\t" + rest), '\t') == id
  {
    var x := id + "\t" + rest;
    assert Trim(gap + id + "\t" + rest) == TrimEnd(x) by {
      LeadingGap(gap, id, rest);
    }
    IdBeforeTab(id, rest);
  }

  /** The blanks after `song:` are trimmed away; only the end of the field remains to trim. */
  lemma LeadingGap(gap: string, id: string, rest: string)
    requires AllWhitespace(gap)
    requires id != "" && !IsWhitespace(id[0])
    ensures Trim(gap + id + "\t" + rest) == TrimEnd(id + "\t" + rest)
  {
    var x := id + "\t" + rest;
    assert gap + id + "\t" + rest == gap + x;
    assert x[0] == id[0];
    TrimPastWhitespace(gap, x);
  }

  /** The id ends at the tab, whatever trimming the end of the field removes. */
  lemma IdBeforeTab(id: string, rest: string)
    requires id != "" && !IsWhitespace(id[|id| - 1]) && '\t' !in id
    ensures TakeUntil(TrimEnd(id + "\t" + rest), '\t') == id
  {
    var x := id + "\t" + rest;
    assert id <= x && x[|id|] == '\t';
    KeepsId(id, x, TrimEnd(x));
  }

  lemma KeepsId(id: string, x: string, r: string)
    requires id != "" && !IsWhitespace(id[|id| - 1]) && '\t' !in id
    requires id <= x && (|x| > |id| ==> x[|id|] == '\t')
    requires r <= x && AllWhitespace(x[|r|..])
    ensures TakeUntil(r, '\t') == id
  {
    assert x[|id| - 1] == id[|id| - 1];
    WhitespaceBound(x, |r|, |id| - 1);
    assert r[..|id|] == id;
    if |r| > |id| {
      assert r == id + ['\t'] + r[|id| + 1..];
      IndexOfAfter(id, '\t', r[|id| + 1..]);
    } else {
      assert r == id;
    }
  }
}

=== FILE: lyric.dfy ===
/**
  The timed-line model of src/lyric.rs: `Lyric`, `LyricLine` and
  `Lyric::from_str`, which unescapes `&apos;`, hands the text to the LRC
  parser and turns each parsed cue into one line whose content is the cue's
  words joined by a single space. The parser itself is a parameter.
 */
module Lyric {
  import opened Wrappers
  import opened Text

  /** One word of a parsed cue, as the LRC parser reports it. */
  datatype LyricWord = LyricWord(startTime: U64, endTime: U64, word: string)

  /** One parsed cue: its start and end time in milliseconds and its words. */
  datatype Cue = Cue(startTime: U64, endTime: U64, words: seq<LyricWord>)

  /** The LRC parser: raw text to cues, in the order it reports them. */
  type Parser = string -> seq<Cue>

  /** One timed line; `end` is kept but never consulted by the engine. */
  datatype LyricLine = LyricLine(begin: U64, end: U64, content: string)

  datatype Lyric = Lyric(lines: seq<LyricLine>)

  const Apos: string := "&apos;"

  /** `lrc.replace("&apos;", "'")`: the only entity the lyric text is unescaped for. */
  function Unescape(s: string): (r: string)
    ensures !Contains(r, Apos)
    ensures !Contains(s, Apos) ==> r == s
  {
    ReplaceRemovesPattern(s, Apos, "'");
    UnescapeClean(s);
    ReplaceAll(s, Apos, "'")
  }

  lemma UnescapeClean(s: string)
    ensures !Contains(s, Apos) ==> ReplaceAll(s, Apos, "'") == s
  {
    if !Contains(s, Apos) {
      ReplaceAbsent(s, Apos, "'");
    }
  }

  /** Each `&apos;` becomes `'`: the first one, and the rest after it. */
  lemma UnescapeAt(a: string, b: string)
    requires !Contains(a, Apos)
    ensures Unescape(a + Apos + b) == a + "'" + Unescape(b)
  {
    forall i: nat | i < |a|
      ensures !OccursAt(a + Apos + b, Apos, i)
    {
      NoStraddle(a, b, i);
    }
    ReplaceAtFirst(a, Apos, "'", b);
  }

  /**
    An `&apos;` cannot start inside text free of it and run into a following
    `&apos;`: its only `&` is its first character.
   */
  lemma NoStraddle(a: string, b: string, i: nat)
    requires !Contains(a, Apos) && i < |a|
    ensures !OccursAt(a + Apos + b, Apos, i)
  {
    var s := a + Apos + b;
    if i + |Apos| <= |a| {
      assert s[i..i + |Apos|] == a[i..i + |Apos|];
      assert !OccursAt(a, Apos, i);
    } else if i + |Apos| <= |s| {
      assert s[i..i + |Apos|][|a| - i] == s[|a|] == '&';
      assert Apos[|a| - i] != '&';
    }
  }

  /** Unescaping twice is unescaping once. */
  lemma UnescapeIdempotent(s: string)
    ensures Unescape(Unescape(s)) == Unescape(s)
  {
  }

  /** The texts of the words, in order. */
  function WordTexts(ws: seq<LyricWord>): seq<string> {
    seq(|ws|, k requires 0 <= k < |ws| => ws[k].word)
  }

  /** The line built from one cue. */
  function LineOf(c: Cue): LyricLine {
    LyricLine(c.startTime, c.endTime, Join(WordTexts(c.words), " "))
  }

  /** The `for` loop of `from_str`: one line per cue, in order. */
  function LinesOf(cues: seq<Cue>): seq<LyricLine> {
    seq(|cues|, k requires 0 <= k < |cues| => LineOf(cues[k]))
  }

  /** `Lyric::from_str`: total over every text; the parser sees the unescaped text. */
  function FromStr(parse: Parser, lrc: string): (l: Lyric)
    ensures |l.lines| == |parse(Unescape(lrc))|
    ensures forall k :: 0 <= k < |l.lines| ==>
              && l.lines[k].begin == parse(Unescape(lrc))[k].startTime
              && l.lines[k].end == parse(Unescape(lrc))[k].endTime
  {
    Lyric(LinesOf(parse(Unescape(lrc))))
  }

  /** A cue with no words gives an empty line; a cue with one word gives exactly that word. */
  lemma ContentOfFewWords(c: Cue)
    ensures |c.words| == 0 ==> LineOf(c).content == ""
    ensures |c.words| == 1 ==> LineOf(c).content == c.words[0].word
  {
  }

  /**
    The content keeps every word, in order: splitting it at spaces gives the
    cue's words back when the cue has words and none of them holds a space.
   */
  lemma ContentKeepsWords(c: Cue)
    requires |c.words| > 0
    requires forall k :: 0 <= k < |c.words| ==> ' ' !in c.words[k].word
    ensures Split(LineOf(c).content, ' ') == WordTexts(c.words)
  {
    SplitJoin(WordTexts(c.words), ' ');
  }

  /**
    Every line of `from_str` keeps the words of the cue at the same position:
    splitting its content at spaces gives them back, in order.
   */
  lemma FromStrKeepsWords(parse: Parser, lrc: string, k: nat)
    requires k < |parse(Unescape(lrc))|
    requires |parse(Unescape(lrc))[k].words| > 0
    requires forall j :: 0 <= j < |parse(Unescape(lrc))[k].words| ==> ' ' !in parse(Unescape(lrc))[k].words[j].word
    ensures Split(FromStr(parse, lrc).lines[k].content, ' ') == WordTexts(parse(Unescape(lrc))[k].words)
  {
    ContentKeepsWords(parse(Unescape(lrc))[k]);
  }

  /** Text without `&apos;` reaches the parser verbatim. */
  lemma FromStrClean(parse: Parser, lrc: string)
    requires !Contains(lrc, Apos)
    ensures FromStr(parse, lrc) == Lyric(LinesOf(parse(lrc)))
  {
  }

  /** Unescaping the text before `from_str` changes nothing: it unescapes anyway. */
  lemma FromStrUnescaped(parse: Parser, lrc: string)
    ensures FromStr(parse, Unescape(lrc)) == FromStr(parse, lrc)
  {
    UnescapeIdempotent(lrc);
  }
}

=== FILE: paths.dfy ===
/**
  The parts of Rust's `std::path::Path` that lyric resolution uses
  (`file_name`, `file_stem`, `extension`), for Unix paths held as strings.
  Components are the pieces between `/` separators; repeated and trailing
  separators and `.` pieces are not components, as in `Path::components`.
 */
module Paths {
  import opened Wrappers
  import opened Text

  /** Keeps the pieces of a `/`-split path that are components. */
  function KeepComponents(parts: seq<string>): (cs: seq<string>)
    ensures forall k :: 0 <= k < |cs| ==> cs[k] != "" && cs[k] != "."
  {
    if |parts| == 0 then []
    else
      var last := parts[|parts| - 1];
      var rest := KeepComponents(parts[..|parts| - 1]);
      if last == "" || last == "." then rest else rest + [last]
  }

  function Components(p: string): seq<string> {
    KeepComponents(Split(p, '/'))
  }

  /** `Path::file_name`: the last component, unless there is none or it is `..`. */
  function FileName(p: string): (r: Option<string>)
    ensures r.Some? ==> r.value != "" && r.value != "." && r.value != ".." && '/' !in r.value
  {
    var cs := Components(p);
    if |cs| == 0 || cs[|cs| - 1] == ".." then None
    else
      assert cs[|cs| - 1] in Split(p, '/') by {
        KeepComponentsFrom(Split(p, '/'));
      }
      Some(cs[|cs| - 1])
  }

  lemma {:induction false} KeepComponentsFrom(parts: seq<string>)
    ensures forall k :: 0 <= k < |KeepComponents(parts)| ==> KeepComponents(parts)[k] in parts
  {
    if |parts| > 0 {
      KeepComponentsFrom(parts[..|parts| - 1]);
    }
  }

  /**
    Rust's private `rsplit_file_at_dot`: the text before and after the last
    `.` of a file name; a name whose only `.` is its first character (a
    hidden file) and a name without `.` have no extension.
   */
  function SplitAtLastDot(name: string): (Option<string>, Option<string>) {
    match LastIndexOf(name, '.')
    case None => (None, Some(name))
    case Some(i) =>
      if i == 0 then (Some(name), None) else (Some(name[..i]), Some(name[i + 1..]))
  }

  /** `Path::file_stem`: the file name without its extension. */
  function FileStem(p: string): (r: Option<string>)
    ensures r.Some? <==> FileName(p).Some?
    ensures r.Some? ==> r.value != "" && r.value <= FileName(p).value
  {
    match FileName(p)
    case None => None
    case Some(n) =>
      var (before, after) := SplitAtLastDot(n);
      if before.Some? then before else after
  }

  /** `Path::extension`: the text after the last `.` of the file name, if it has one. */
  function Extension(p: string): (r: Option<string>)
    ensures r.Some? ==> FileStem(p).Some? && '.' !in r.value
  {
    match FileName(p)
    case None => None
    case Some(n) =>
      var (before, after) := SplitAtLastDot(n);
      if before.Some? then after else None
  }

  /** A file name is its stem, followed by a dot and the extension when there is one. */
  lemma FileNameParts(p: string)
    requires FileName(p).Some?
    ensures Extension(p).Some? ==> FileName(p).value == FileStem(p).value + "." + Extension(p).value
    ensures Extension(p).None? ==> FileName(p) == FileStem(p)
  {
    var n := FileName(p).value;
    match LastIndexOf(n, '.')
    case None =>
    case Some(i) =>
      if i > 0 {
        assert n == n[..i] + "." + n[i + 1..];
      }
  }

  /** Appending a component to a directory makes it the path's last component. */
  lemma ComponentsAppend(dir: string, name: string)
    requires name != "" && name != "." && '/' !in name
    ensures Components(dir + "/" + name) == Components(dir) + [name]
  {
    SplitAppend(dir, '/', name);
    assert Split(dir + "/" + name, '/') == Split(dir, '/') + [name];
    var parts := Split(dir, '/') + [name];
    assert parts[..|parts| - 1] == Split(dir, '/');
  }

  /**
    The path `<dir>/<stem>.lrc` that exact lookup reads has stem `stem` and
    extension `lrc`: the same file is a candidate of the fuzzy lookup, under
    the same label.
   */
  lemma LrcPathParts(dir: string, stem: string)
    requires stem != "" && '/' !in stem
    ensures FileStem(dir + "/" + stem + ".lrc") == Some(stem)
    ensures Extension(dir + "/" + stem + ".lrc") == Some("lrc")
  {
    var name := stem + ".lrc";
    assert dir + "/" + stem + ".lrc" == dir + "/" + name;
    assert name[|name| - 1] == 'c';
    ComponentsAppend(dir, name);
    assert FileName(dir + "/" + name) == Some(name);
    assert name == stem + ['.'] + "lrc";
    LastIndexOfBefore(stem, '.', "lrc");
    assert name[..|stem|] == stem;
    assert name[|stem| + 1..] == "lrc";
  }
}

=== FILE: resolver.dfy ===
/**
  Lyric resolution of src/serve.rs (`find_lyric`, `find_lyric_online`): the
  lyric directory with `~` expanded, then an exact `<dir>/<stem>.lrc` lookup
  or an approximate lookup over the directory's `.lrc` files, then the online
  lookup, which always fails, and finally the lyric parsed from empty text.
  The file system, the approximate-match index and the parser are parameters;
  a panic of `find_lyric` (an `unwrap` on a missing value) is an `Err`.
 */
module Resolver {
  import opened Wrappers
  import opened Text
  import opened Paths
  import opened Lyric

  /** The track metadata the player reports: `title()`, `artists()`, `url()`. */
  datatype Metadata = Metadata(title: Option<string>, artists: Option<seq<string>>, url: Option<string>)

  /**
    The approximate-match index (SimSearch): the `(id, label)` pairs inserted
    into it and a query give the matching ids, best first.
   */
  type Ranker = (seq<(string, string)>, string) -> seq<string>

  /** What lyric resolution reads from outside the engine. */
  datatype LyricSources = LyricSources(
    home: Option<string>,                      // `dirs::home_dir()`
    files: map<string, string>,                // readable files and their text
    dirs: map<string, seq<Option<string>>>,    // readable directories: entry paths, `None` for an entry that errs
    rank: Ranker,
    parse: Parser,
    fuoStatus: string,                         // output of `fuo status`
    fuoShow: string -> string)                 // output of `fuo show <argument>`

  const FileScheme: string := "file://"

  /** `lyric_dir.replace("~", home)`. */
  function ExpandHome(dir: string, home: string): (r: string)
    ensures r == ExpandChar(dir, '~', home)
    ensures '~' !in home ==> '~' !in r
    ensures '~' !in dir ==> r == dir
  {
    ReplaceCharIsExpand(dir, '~', home);
    ExpandHomeFacts(dir, home);
    ReplaceAll(dir, "~", home)
  }

  lemma ExpandHomeFacts(dir: string, home: string)
    ensures '~' !in home ==> '~' !in ExpandChar(dir, '~', home)
    ensures '~' !in dir ==> ExpandChar(dir, '~', home) == dir
  {
    if '~' !in home {
      ExpandCharRemoves(dir, '~', home);
    }
    if '~' !in dir {
      ExpandCharAbsent(dir, '~', home);
    }
  }

  /** `find_lyric_online`: not implemented; every call fails. */
  function FindLyricOnline(title: string, artist: string): (r: Result<string>)
    ensures r.Err?
  {
    Err("Not implemented")
  }

  /** An entry the approximate lookup indexes: a path with a stem and the extension `lrc`. */
  predicate IsLrc(path: string) {
    FileStem(path).Some? && Extension(path) == Some("lrc")
  }

  /**
    The `(path, stem)` pairs inserted into the index, in listing order; `None`
    when an entry cannot be read (its `unwrap` panics).
   */
  function LrcIndex(entries: seq<Option<string>>): (r: Option<seq<(string, string)>>)
    ensures r.Some? <==> forall k :: 0 <= k < |entries| ==> entries[k].Some?
    ensures r.Some? ==> forall k :: 0 <= k < |r.value| ==>
              IsLrc(r.value[k].0) && FileStem(r.value[k].0) == Some(r.value[k].1)
    ensures r.Some? ==> forall k :: 0 <= k < |entries| && IsLrc(entries[k].value) ==>
              (entries[k].value, FileStem(entries[k].value).value) in r.value
    ensures r.Some? ==> forall k :: 0 <= k < |r.value| ==> Some(r.value[k].0) in entries
  {
    if |entries| == 0 then Some([])
    else
      match entries[0]
      case None => None
      case Some(p) =>
        match LrcIndex(entries[1..])
        case None =>
          assert !(forall k :: 0 <= k < |entries| ==> entries[k].Some?) by {
            var k :| 0 <= k < |entries[1..]| && entries[1..][k].None?;
            assert entries[k + 1].None?;
          }
          None
        case Some(rest) =>
          var head := if IsLrc(p) then [(p, FileStem(p).value)] else [];
          AllReadable(entries);
          IndexConsShape(p, head, rest);
          IndexConsMembers(entries, p, head, rest);
          Some(head + rest)
  }

  /** A listing whose first entry and rest can be read can be read entirely. */
  lemma AllReadable(entries: seq<Option<string>>)
    requires |entries| > 0 && entries[0].Some?
    requires forall k :: 0 <= k < |entries[1..]| ==> entries[1..][k].Some?
    ensures forall k :: 0 <= k < |entries| ==> entries[k].Some?
  {
    forall k | 0 < k < |entries|
      ensures entries[k].Some?
    {
      assert entries[k] == entries[1..][k - 1];
    }
  }

  /** One more listed entry: its own pair, when it is a `.lrc`, goes in front of the index of the rest. */
  lemma IndexConsShape(p: string, head: seq<(string, string)>, rest: seq<(string, string)>)
    requires head == if IsLrc(p) then [(p, FileStem(p).value)] else []
    requires forall k :: 0 <= k < |rest| ==> IsLrc(rest[k].0) && FileStem(rest[k].0) == Some(rest[k].1)
    ensures forall k :: 0 <= k < |head + rest| ==>
              IsLrc((head + rest)[k].0) && FileStem((head + rest)[k].0) == Some((head + rest)[k].1)
  {
    var r := head + rest;
    forall k | 0 <= k < |r|
      ensures IsLrc(r[k].0) && FileStem(r[k].0) == Some(r[k].1)
    {
      if k < |head| {
        assert IsLrc(p) && r[k] == (p, FileStem(p).value);
      } else {
        assert r[k] == rest[k - |head|];
      }
    }
  }

  /** One more listed entry: the index still holds every listed `.lrc` and nothing unlisted. */
  lemma IndexConsMembers(entries: seq<Option<string>>, p: string, head: seq<(string, string)>, rest: seq<(string, string)>)
    requires |entries| > 0 && entries[0] == Some(p)
    requires forall k :: 0 <= k < |entries| ==> entries[k].Some?
    requires head == if IsLrc(p) then [(p, FileStem(p).value)] else []
    requires forall k :: 0 <= k < |entries[1..]| && IsLrc(entries[1..][k].value) ==>
               (entries[1..][k].value, FileStem(entries[1..][k].value).value) in rest
    requires forall k :: 0 <= k < |rest| ==> Some(rest[k].0) in entries[1..]
    ensures forall k :: 0 <= k < |entries| && IsLrc(entries[k].value) ==>
              (entries[k].value, FileStem(entries[k].value).value) in head + rest
    ensures forall k :: 0 <= k < |head + rest| ==> Some((head + rest)[k].0) in entries
  {
    var r := head + rest;
    forall k | 0 <= k < |entries| && IsLrc(entries[k].value)
      ensures (entries[k].value, FileStem(entries[k].value).value) in r
    {
      if k == 0 {
        assert r[0] == (p, FileStem(p).value);
      } else {
        assert entries[k] == entries[1..][k - 1];
      }
    }
    forall k | 0 <= k < |r|
      ensures Some(r[k].0) in entries
    {
      if k < |head| {
        assert entries[0] == Some(r[k].0);
      } else {
        assert r[k] == rest[k - |head|];
      }
    }
  }

  /**
    `pos` places the index in the listing: the `i`-th indexed path is the
    entry at `pos[i]`, and the positions increase.
   */
  ghost predicate ListedInOrder(index: seq<(string, string)>, entries: seq<Option<string>>, pos: seq<nat>) {
    && |pos| == |index|
    && (forall i :: 0 <= i < |pos| ==> pos[i] < |entries| && entries[pos[i]] == Some(index[i].0))
    && (forall i, j :: 0 <= i < j < |pos| ==> pos[i] < pos[j])
  }

  /**
    The index keeps the listing order: it is the subsequence of the listing
    made of its `.lrc` entries, which the ranker sees in that order.
   */
  lemma {:induction false} LrcIndexInOrder(entries: seq<Option<string>>)
    requires LrcIndex(entries).Some?
    ensures exists pos :: ListedInOrder(LrcIndex(entries).value, entries, pos)
    decreases |entries|
  {
    if |entries| == 0 {
      assert ListedInOrder([], entries, []);
    } else {
      var p := entries[0].value;
      var tail := entries[1..];
      LrcIndexInOrder(tail);
      var rest := LrcIndex(tail).value;
      var pos' :| ListedInOrder(rest, tail, pos');
      assert entries == [Some(p)] + tail;
      var head := if IsLrc(p) then [(p, FileStem(p).value)] else [];
      assert LrcIndex(entries).value == head + rest;
      var pos := ListedAfter(rest, tail, pos', p, head);
    }
  }

  /** Placing an index in a listing survives one more entry in front. */
  lemma ListedAfter(rest: seq<(string, string)>, tail: seq<Option<string>>, pos': seq<nat>,
                    p: string, head: seq<(string, string)>)
      returns (pos: seq<nat>)
    requires ListedInOrder(rest, tail, pos')
    requires head == [] || (|head| == 1 && head[0].0 == p)
    ensures ListedInOrder(head + rest, [Some(p)] + tail, pos)
  {
    var shifted := ListedShifted(rest, tail, pos', Some(p));
    if head == [] {
      pos := shifted;
      assert head + rest == rest;
    } else {
      pos := ListedFirst(rest, [Some(p)] + tail, shifted, head[0]);
    }
  }

  /** Listing one more entry in front moves every position one place on. */
  lemma ListedShifted(index: seq<(string, string)>, tail: seq<Option<string>>, pos': seq<nat>, e: Option<string>)
      returns (pos: seq<nat>)
    requires ListedInOrder(index, tail, pos')
    ensures ListedInOrder(index, [e] + tail, pos)
    ensures forall i :: 0 <= i < |pos| ==> pos[i] > 0
  {
    pos := seq(|pos'|, i requires 0 <= i < |pos'| => pos'[i] + 1);
    var es := [e] + tail;
    forall i | 0 <= i < |pos|
      ensures pos[i] < |es| && es[pos[i]] == Some(index[i].0)
    {
      assert es[pos'[i] + 1] == tail[pos'[i]];
    }
  }

  /** The first entry's pair goes in front of an index placed after position 0. */
  lemma ListedFirst(index: seq<(string, string)>, entries: seq<Option<string>>, pos': seq<nat>, h: (string, string))
      returns (pos: seq<nat>)
    requires ListedInOrder(index, entries, pos')
    requires forall i :: 0 <= i < |pos'| ==> pos'[i] > 0
    requires |entries| > 0 && entries[0] == Some(h.0)
    ensures ListedInOrder([h] + index, entries, pos)
  {
    pos := [0] + pos';
    var ix := [h] + index;
    forall i | 0 <= i < |pos|
      ensures pos[i] < |entries| && entries[pos[i]] == Some(ix[i].0)
    {
      if i > 0 {
        assert pos[i] == pos'[i - 1] && ix[i] == index[i - 1];
      }
    }
    forall i, j | 0 <= i < j < |pos|
      ensures pos[i] < pos[j]
    {
      if i > 0 {
        assert pos[i] == pos'[i - 1];
      }
      assert pos[j] == pos'[j - 1];
    }
  }


  /** The text of `url` with every `file://` removed, as a path. */
  function UrlPath(url: string): string {
    ReplaceAll(url, FileScheme, "")
  }

  /**
    The local lookup for a track: `Ok(Some(lyric))` when a lyric file was
    found and read, `Ok(None)` to go on with the fallback, `Err` on a panic.
   */
  function LocalLyric(md: Metadata, dir: string, fuzzy: bool, src: LyricSources): (r: Result<Option<Lyric>>)
    ensures r.Ok? && r.value.Some? ==>
              exists p :: p in src.files && r.value.value == FromStr(src.parse, src.files[p])
    ensures r.Err? ==> fuzzy
  {
    match md.url
    case None => Ok(None)
    case Some(url) =>
      match FileStem(UrlPath(url))
      case None => Ok(None)
      case Some(stem) =>
        if fuzzy then
          if dir !in src.dirs then Err("lyric directory cannot be read")
          else
            match LrcIndex(src.dirs[dir])
            case None => Err("directory entry cannot be read")
            case Some(index) =>
              var res := src.rank(index, stem);
              if |res| > 0 && res[0] in src.files then Ok(Some(FromStr(src.parse, src.files[res[0]])))
              else Ok(None)
        else
          var path := dir + "/" + stem + ".lrc";
          if path in src.files then Ok(Some(FromStr(src.parse, src.files[path])))
          else Ok(None)
  }

  /**
    After a local miss: with a title, the online lookup with the first artist
    (or none); it always fails, so the result is the lyric of empty text.
   */
  function FallbackLyric(md: Metadata, parse: Parser): (l: Lyric)
    ensures l == FromStr(parse, "")
  {
    match md.title
    case None => FromStr(parse, "")
    case Some(title) =>
      var artist := if md.artists.Some? && |md.artists.value| > 0 then md.artists.value[0] else "";
      match FindLyricOnline(title, artist)
      case Ok(text) => FromStr(parse, text)
      case Err(_) => FromStr(parse, "")
  }

  /** `find_lyric`: `Err` where the Rust code panics. */
  function FindLyric(md: Metadata, lyricDir: string, fuzzy: bool, src: LyricSources): (r: Result<Lyric>)
    ensures src.home.None? ==> r.Err?
    ensures src.home.Some? && !fuzzy ==> r.Ok?
    ensures r.Ok? ==> r.value == FromStr(src.parse, "") ||
                      exists p :: p in src.files && r.value == FromStr(src.parse, src.files[p])
  {
    match src.home
    case None => Err("home directory unknown")
    case Some(home) =>
      var dir := ExpandHome(lyricDir, home);
      match LocalLyric(md, dir, fuzzy, src)
      case Err(e) => Err(e)
      case Ok(Some(l)) => Ok(l)
      case Ok(None) => Ok(FallbackLyric(md, src.parse))
  }

  /** The file exact lookup reads for a track, once the home directory is known. */
  function ExactPath(md: Metadata, lyricDir: string, home: string): Option<string> {
    match md.url
    case None => None
    case Some(url) =>
      match FileStem(UrlPath(url))
      case None => None
      case Some(stem) => Some(ExpandHome(lyricDir, home) + "/" + stem + ".lrc")
  }

  /**
    Without fuzzy matching the lyric is the parse of `<dir>/<stem>.lrc` when
    that file is readable, and the parse of empty text otherwise.
   */
  lemma ExactLookup(md: Metadata, lyricDir: string, src: LyricSources)
    requires src.home.Some?
    ensures var path := ExactPath(md, lyricDir, src.home.value);
            FindLyric(md, lyricDir, false, src) ==
              if path.Some? && path.value in src.files then Ok(FromStr(src.parse, src.files[path.value]))
              else Ok(FromStr(src.parse, ""))
  {
  }

  /** With fuzzy matching, the best-ranked `.lrc` file of the directory is parsed when it is readable. */
  lemma FuzzyLookup(md: Metadata, lyricDir: string, src: LyricSources)
    requires src.home.Some? && md.url.Some? && FileStem(UrlPath(md.url.value)).Some?
    ensures var dir := ExpandHome(lyricDir, src.home.value);
            var stem := FileStem(UrlPath(md.url.value)).value;
            var r := FindLyric(md, lyricDir, true, src);
            && (dir !in src.dirs ==> r.Err?)
            && (dir in src.dirs && LrcIndex(src.dirs[dir]).None? ==> r.Err?)
            && (dir in src.dirs && LrcIndex(src.dirs[dir]).Some? ==>
                  var res := src.rank(LrcIndex(src.dirs[dir]).value, stem);
                  r == if |res| > 0 && res[0] in src.files then Ok(FromStr(src.parse, src.files[res[0]]))
                       else Ok(FromStr(src.parse, "")))
  {
  }

  /** A track without a URL, or whose URL names no file, gets the lyric of empty text. */
  lemma NoFileNoLyric(md: Metadata, lyricDir: string, fuzzy: bool, src: LyricSources)
    requires src.home.Some?
    requires md.url.None? || FileStem(UrlPath(md.url.value)).None?
    ensures FindLyric(md, lyricDir, fuzzy, src) == Ok(FromStr(src.parse, ""))
  {
  }

  /**
    The two lookups agree on what a lyric file is: when the exact file
    `<dir>/<stem>.lrc` is listed in the directory, the approximate index holds
    it under the label `stem`.
   */
  lemma ExactFileIndexed(dir: string, stem: string, entries: seq<Option<string>>)
    requires stem != "" && '/' !in stem
    requires LrcIndex(entries).Some?
    requires Some(dir + "/" + stem + ".lrc") in entries
    ensures (dir + "/" + stem + ".lrc", stem) in LrcIndex(entries).value
  {
    LrcPathParts(dir, stem);
    var k :| 0 <= k < |entries| && entries[k] == Some(dir + "/" + stem + ".lrc");
  }
}

=== FILE: selection.dfy ===
/**
  The body of the tracking loop in src/serve.rs that turns the estimated
  playback position into the published line: the position estimate, the
  filter-and-take-last candidate, and the write to the shared cell, which
  happens only for a non-empty candidate.
 */
module Selection {
  import opened Wrappers
  import opened Lyric

  const NanosPerMilli: nat := 1_000_000
  const U64Modulus: nat := 0x1_0000_0000_0000_0000

  /** The largest `Duration`: `u64::MAX` seconds and 999 999 999 nanoseconds. */
  const MaxDurationNanos: nat := U64Modulus * 1_000_000_000 - 1

  /**
    `(position + instant.elapsed()).as_millis() as u64`, with both durations in
    nanoseconds. Adding durations panics on overflow (`None`); `as_millis`
    drops the sub-millisecond part and `as u64` keeps the low 64 bits.
   */
  function EstimatePos(positionNanos: nat, elapsedNanos: nat): (pos: Option<U64>)
    ensures pos.None? <==> positionNanos + elapsedNanos > MaxDurationNanos
    ensures pos.Some? && positionNanos + elapsedNanos < U64Modulus * NanosPerMilli ==>
              pos.value * NanosPerMilli <= positionNanos + elapsedNanos < (pos.value + 1) * NanosPerMilli
  {
    var total := positionNanos + elapsedNanos;
    if total > MaxDurationNanos then None
    else Some((total / NanosPerMilli) % U64Modulus)
  }

  /** Below the wrap-around, a later instant never gives an earlier position. */
  lemma EstimateMonotone(positionNanos: nat, e1: nat, e2: nat)
    requires e1 <= e2 && positionNanos + e2 < U64Modulus * NanosPerMilli
    ensures EstimatePos(positionNanos, e1).Some? && EstimatePos(positionNanos, e2).Some?
    ensures EstimatePos(positionNanos, e1).value <= EstimatePos(positionNanos, e2).value
  {
  }

  /** `filter(|v| v.begin <= pos).map(|v| v.content)`: contents of the begun lines, in order. */
  function Begun(lines: seq<LyricLine>, pos: U64): (contents: seq<string>)
    ensures |contents| <= |lines|
  {
    if |lines| == 0 then []
    else
      var last := lines[|lines| - 1];
      Begun(lines[..|lines| - 1], pos) + (if last.begin <= pos then [last.content] else [])
  }

  function Last(s: seq<string>): Option<string> {
    if |s| == 0 then None else Some(s[|s| - 1])
  }

  /** The index of the last line, in sequence order, whose `begin` is at or before `pos`. */
  function LastBegun(lines: seq<LyricLine>, pos: U64): (r: Option<nat>)
    ensures r.None? <==> forall k :: 0 <= k < |lines| ==> lines[k].begin > pos
    ensures r.Some? ==> r.value < |lines| && lines[r.value].begin <= pos
    ensures r.Some? ==> forall k :: r.value < k < |lines| ==> lines[k].begin > pos
  {
    if |lines| == 0 then None
    else if lines[|lines| - 1].begin <= pos then Some(|lines| - 1)
    else LastBegun(lines[..|lines| - 1], pos)
  }

  /** The content of the line at an optional index. */
  function ContentAt(lines: seq<LyricLine>, i: Option<nat>): Option<string>
    requires i.Some? ==> i.value < |lines|
  {
    match i
    case None => None
    case Some(k) => Some(lines[k].content)
  }

  /** `line.last()` of the filtered contents is the content of the last begun line. */
  lemma {:induction false} BegunLast(lines: seq<LyricLine>, pos: U64)
    ensures Last(Begun(lines, pos)) == ContentAt(lines, LastBegun(lines, pos))
  {
    if |lines| > 0 && lines[|lines| - 1].begin > pos {
      var init := lines[..|lines| - 1];
      BegunLast(init, pos);
      assert Begun(lines, pos) == Begun(init, pos);
      assert forall k :: 0 <= k < |init| ==> init[k] == lines[k];
    }
  }

  /**
    One publish step: the shared cell after the tick at position `pos`, given
    its value `prev` before. It changes only to the non-empty content of the
    last begun line.
   */
  function Publish(lines: seq<LyricLine>, pos: U64, prev: string): (cell: string)
    ensures LastBegun(lines, pos).None? ==> cell == prev
    ensures LastBegun(lines, pos).Some? && lines[LastBegun(lines, pos).value].content == "" ==> cell == prev
    ensures LastBegun(lines, pos).Some? && lines[LastBegun(lines, pos).value].content != "" ==>
              cell == lines[LastBegun(lines, pos).value].content
  {
    BegunLast(lines, pos);
    match Last(Begun(lines, pos))
    case None => prev
    case Some(line) => if line != "" then line else prev
  }

  /** The lines are in non-decreasing `begin` order, as the parser is expected to produce them. */
  predicate Sorted(lines: seq<LyricLine>) {
    forall i, j :: 0 <= i < j < |lines| ==> lines[i].begin <= lines[j].begin
  }

  /**
    With sorted lines the candidate is a line with the greatest `begin` not
    after `pos` (the last of them when several share it); before the first
    cue there is none.
   */
  lemma SortedSelectsGreatestBegin(lines: seq<LyricLine>, pos: U64)
    requires Sorted(lines)
    ensures LastBegun(lines, pos).Some? ==>
              forall k :: 0 <= k < |lines| && lines[k].begin <= pos ==>
                lines[k].begin <= lines[LastBegun(lines, pos).value].begin
    ensures |lines| > 0 && pos < lines[0].begin ==> LastBegun(lines, pos).None?
  {
  }

  /** A later position never selects an earlier line. */
  lemma SelectionMonotone(lines: seq<LyricLine>, p1: U64, p2: U64)
    requires p1 <= p2 && LastBegun(lines, p1).Some?
    ensures LastBegun(lines, p2).Some?
    ensures LastBegun(lines, p1).value <= LastBegun(lines, p2).value
  {
  }

  /** `end` is never read: lines that differ only in `end` publish the same. */
  lemma PublishIgnoresEnd(lines: seq<LyricLine>, other: seq<LyricLine>, pos: U64, prev: string)
    requires |lines| == |other|
    requires forall k :: 0 <= k < |lines| ==>
               lines[k].begin == other[k].begin && lines[k].content == other[k].content
    ensures Publish(lines, pos, prev) == Publish(other, pos, prev)
  {
    var a := LastBegun(lines, pos);
    var b := LastBegun(other, pos);
    assert a.Some? <==> b.Some?;
  }

  /** Once the cell holds text it is never blanked. */
  lemma PublishNeverBlanks(lines: seq<LyricLine>, pos: U64, prev: string)
    requires prev != ""
    ensures Publish(lines, pos, prev) != ""
  {
  }

  /** The published value is the previous one or the content of some line. */
  lemma PublishFromLines(lines: seq<LyricLine>, pos: U64, prev: string)
    ensures Publish(lines, pos, prev) == prev ||
            exists k :: 0 <= k < |lines| && lines[k].begin <= pos && Publish(lines, pos, prev) == lines[k].content
  {
  }

  /**
    Lines `[{1000, 4000, "Hello"}, {5000, 8000, "World"}]`: at 4500 ms "Hello" is
    still shown past its end; before 1000 ms the previous song's line stays;
    from 5000 ms "World" is shown.
   */
  lemma HelloWorldExample(prev: string)
    ensures var lines := [LyricLine(1000, 4000, "Hello"), LyricLine(5000, 8000, "World")];
            && Publish(lines, 4500, prev) == "Hello"
            && Publish(lines, 999, prev) == prev
            && Publish(lines, 5000, prev) == "World"
  {
    var lines := [LyricLine(1000, 4000, "Hello"), LyricLine(5000, 8000, "World")];
    assert LastBegun(lines, 4500) == Some(0);
    assert LastBegun(lines, 5000) == Some(1);
  }

  /** An empty line never overwrites: "Hello" stays when the new line is empty. */
  lemma EmptyLineKeepsCell()
    ensures Publish([LyricLine(1000, 4000, "Hello"), LyricLine(5000, 8000, "")], 6000, "Hello") == "Hello"
  {
    assert LastBegun([LyricLine(1000, 4000, "Hello"), LyricLine(5000, 8000, "")], 6000) == Some(1);
  }
}

=== FILE: text.dfy ===
/**
  The string operations of Rust's `str` that the lyric engine relies on, over
  `seq<char>`: `replace`, `trim`, `lines`, `split(..).nth(0)`, `split` and `join`.
  Each is written the way the standard library computes it (leftmost-first,
  non-overlapping replacement; `lines` strips one `\r` before a `\n`) and is
  characterised by its contract.
 */
module Text {
  import opened Wrappers

  /** `p` occurs in `s` starting at index `i`. */
  predicate OccursAt(s: string, p: string, i: nat) {
    i + |p| <= |s| && s[i..i + |p|] == p
  }

  /** `p` is a substring of `s` (Rust's `s.contains(p)`). */
  predicate Contains(s: string, p: string) {
    exists i: nat | i <= |s| :: OccursAt(s, p, i)
  }

  /** Occurrences in `b` are occurrences in `a + b`, shifted by `|a|`. */
  lemma OccursShift(a: string, b: string, p: string, i: nat)
    ensures OccursAt(a + b, p, |a| + i) <==> OccursAt(b, p, i)
  {
    if |a| + i + |p| <= |a + b| {
      assert (a + b)[|a| + i..|a| + i + |p|] == b[i..i + |p|];
    }
  }

  /** First index of `c` in `s`. */
  function IndexOf(s: string, c: char): (r: Option<nat>)
    ensures r.None? <==> c !in s
    ensures r.Some? ==> r.value < |s| && s[r.value] == c
    ensures r.Some? ==> forall k :: 0 <= k < r.value ==> s[k] != c
  {
    if |s| == 0 then None
    else if s[0] == c then Some(0)
    else
      match IndexOf(s[1..], c)
      case None => None
      case Some(i) => Some(i + 1)
  }

  /** Last index of `c` in `s`. */
  function LastIndexOf(s: string, c: char): (r: Option<nat>)
    ensures r.None? <==> c !in s
    ensures r.Some? ==> r.value < |s| && s[r.value] == c
    ensures r.Some? ==> forall k :: r.value < k < |s| ==> s[k] != c
  {
    if |s| == 0 then None
    else if s[|s| - 1] == c then Some(|s| - 1)
    else LastIndexOf(s[..|s| - 1], c)
  }

  lemma IndexOfAfter(a: string, c: char, b: string)
    requires c !in a
    ensures IndexOf(a + [c] + b, c) == Some(|a|)
  {
    var s := a + [c] + b;
    assert s[|a|] == c;
    assert forall k :: 0 <= k < |a| ==> s[k] == a[k];
  }

  lemma LastIndexOfBefore(a: string, c: char, b: string)
    requires c !in b
    ensures LastIndexOf(a + [c] + b, c) == Some(|a|)
  {
    var s := a + [c] + b;
    assert s[|a|] == c;
    assert s[|a| + 1..] == b;
  }

  // ---------------------------------------------------------------------------
  // str::replace
  // ---------------------------------------------------------------------------

  /**
    Rust's `s.replace(pat, rep)`: scans left to right and replaces every
    non-overlapping occurrence of `pat`, leftmost first.
   */
  function ReplaceAll(s: string, pat: string, rep: string): (r: string)
    requires |pat| > 0
    decreases |s|
  {
    if |s| == 0 then ""
    else if pat <= s then rep + ReplaceAll(s[|pat|..], pat, rep)
    else [s[0]] + ReplaceAll(s[1..], pat, rep)
  }

  /** Text without the pattern passes through `replace` unchanged. */
  lemma {:induction false} ReplaceAbsent(s: string, pat: string, rep: string)
    requires |pat| > 0 && !Contains(s, pat)
    ensures ReplaceAll(s, pat, rep) == s
    decreases |s|
  {
    if |s| > 0 {
      assert !OccursAt(s, pat, 0);
      assert !(pat <= s);
      forall i: nat | i <= |s[1..]|
        ensures !OccursAt(s[1..], pat, i)
      {
        OccursShift([s[0]], s[1..], pat, i);
        assert [s[0]] + s[1..] == s;
      }
      ReplaceAbsent(s[1..], pat, rep);
      assert s == [s[0]] + s[1..];
    }
  }

  /** The characters of `rep` are all outside `pat`. */
  predicate Disjoint(rep: string, pat: string) {
    forall k :: 0 <= k < |rep| ==> rep[k] !in pat
  }

  /**
    A prefix made of characters that `rep` never starts with was already a
    prefix of the input: `replace` only changes text where it writes `rep`.
   */
  lemma {:induction false} ReplacePrefixBack(t: string, pat: string, rep: string, p: string)
    requires |pat| > 0 && |rep| > 0 && rep[0] !in p
    requires p <= ReplaceAll(t, pat, rep)
    ensures p <= t
    decreases |t|
  {
    if |p| > 0 {
      var r := ReplaceAll(t, pat, rep);
      assert |t| > 0;
      assert p[0] == r[0];
      assert !(pat <= t);
      assert r == [t[0]] + ReplaceAll(t[1..], pat, rep);
      assert p[1..] <= ReplaceAll(t[1..], pat, rep);
      assert forall k :: 0 <= k < |p| - 1 ==> p[1..][k] == p[k + 1];
      assert rep[0] !in p[1..];
      ReplacePrefixBack(t[1..], pat, rep, p[1..]);
      assert p == [p[0]] + p[1..];
      assert t == [t[0]] + t[1..];
    }
  }

  /**
    When the replacement is non-empty and shares no character with the
    pattern, no occurrence of the pattern survives `replace`.
   */
  lemma {:induction false} ReplaceRemovesPattern(s: string, pat: string, rep: string)
    requires |pat| > 0 && |rep| > 0 && Disjoint(rep, pat)
    ensures !Contains(ReplaceAll(s, pat, rep), pat)
    decreases |s|
  {
    if |s| > 0 && pat <= s {
      ReplaceRemovesPattern(s[|pat|..], pat, rep);
      NoPatternAfterRep(rep, ReplaceAll(s[|pat|..], pat, rep), pat);
    } else if |s| > 0 {
      ReplaceRemovesPattern(s[1..], pat, rep);
      NoPatternAfterCopy(s, pat, rep);
    }
  }

  /** Writing `rep` in front of pattern-free text creates no occurrence. */
  lemma NoPatternAfterRep(rep: string, t: string, pat: string)
    requires |pat| > 0 && Disjoint(rep, pat) && !Contains(t, pat)
    ensures !Contains(rep + t, pat)
  {
    var r := rep + t;
    forall i: nat | i <= |r|
      ensures !OccursAt(r, pat, i)
    {
      if i < |rep| {
        assert rep[i] !in pat;
        assert r[i] == rep[i];
      } else {
        OccursShift(rep, t, pat, i - |rep|);
      }
    }
  }

  /** Copying a character that does not start the pattern creates no occurrence. */
  lemma NoPatternAfterCopy(s: string, pat: string, rep: string)
    requires |pat| > 0 && |rep| > 0 && Disjoint(rep, pat)
    requires |s| > 0 && !(pat <= s)
    requires !Contains(ReplaceAll(s[1..], pat, rep), pat)
    ensures !Contains(ReplaceAll(s, pat, rep), pat)
  {
    var t := ReplaceAll(s[1..], pat, rep);
    assert ReplaceAll(s, pat, rep) == [s[0]] + t;
    CopiedHead(s, pat, rep);
    NoPatternBehind(s[0], t, pat);
  }

  /** The copied character does not start an occurrence in the output. */
  lemma CopiedHead(s: string, pat: string, rep: string)
    requires |pat| > 0 && |rep| > 0 && Disjoint(rep, pat)
    requires |s| > 0 && !(pat <= s)
    ensures !OccursAt(ReplaceAll(s, pat, rep), pat, 0)
  {
    var t := ReplaceAll(s[1..], pat, rep);
    var r := ReplaceAll(s, pat, rep);
    assert r == [s[0]] + t;
    if OccursAt(r, pat, 0) {
      assert pat[1..] <= t by {
        assert r[..|pat|] == pat;
        assert t[..|pat| - 1] == r[1..|pat|];
      }
      assert forall k :: 0 <= k < |pat| - 1 ==> pat[1..][k] == pat[k + 1];
      assert rep[0] !in pat;
      ReplacePrefixBack(s[1..], pat, rep, pat[1..]);
      assert false;
    }
  }

  /** A text free of the pattern stays free of it behind one character that does not start it. */
  lemma NoPatternBehind(c: char, t: string, pat: string)
    requires !Contains(t, pat) && !OccursAt([c] + t, pat, 0)
    ensures !Contains([c] + t, pat)
  {
    forall i: nat | 0 < i <= |[c] + t|
      ensures !OccursAt([c] + t, pat, i)
    {
      OccursShift([c], t, pat, i - 1);
    }
  }

  /**
    The first occurrence becomes `rep`: the text before it, in which no
    occurrence starts, is copied, and the scan goes on after the occurrence.
   */
  lemma {:induction false} ReplaceAtFirst(a: string, pat: string, rep: string, b: string)
    requires |pat| > 0
    requires forall i: nat :: i < |a| ==> !OccursAt(a + pat + b, pat, i)
    ensures ReplaceAll(a + pat + b, pat, rep) == a + rep + ReplaceAll(b, pat, rep)
    decreases |a|
  {
    var s := a + pat + b;
    if |a| == 0 {
      assert s == pat + b;
      assert s[|pat|..] == b;
    } else {
      var a', t := a[1..], ReplaceAll(b, pat, rep);
      assert ReplaceAll(s, pat, rep) == [a[0]] + ReplaceAll(a' + pat + b, pat, rep) by {
        assert !OccursAt(s, pat, 0);
        assert !(pat <= s);
        assert s[1..] == a' + pat + b;
      }
      assert forall i: nat :: i < |a'| ==> !OccursAt(a' + pat + b, pat, i) by {
        assert s == [a[0]] + (a' + pat + b);
        NoOccurrenceBehind(a[0], a' + pat + b, pat, |a'|);
      }
      ReplaceAtFirst(a', pat, rep, b);
      ConsAppend(a[0], a' + rep, t);
      assert [a[0]] + (a' + rep) == a + rep by {
        assert a == [a[0]] + a';
      }
    }
  }

  /**
    `replace` on any text where the pattern occurs: everything before the
    leftmost occurrence is copied, that occurrence becomes the replacement,
    and the scan goes on after it. With ReplaceAbsent this fixes the result
    on every input.
   */
  lemma ReplaceAtLeftmost(s: string, pat: string, rep: string, i: nat)
    requires |pat| > 0 && OccursAt(s, pat, i)
    requires forall j: nat :: j < i ==> !OccursAt(s, pat, j)
    ensures ReplaceAll(s, pat, rep) == s[..i] + rep + ReplaceAll(s[i + |pat|..], pat, rep)
  {
    OccurrenceParts(s, pat, i);
    ReplaceAtFirst(s[..i], pat, rep, s[i + |pat|..]);
  }

  /** A text is what comes before an occurrence, the occurrence, and what follows. */
  lemma OccurrenceParts(s: string, pat: string, i: nat)
    requires OccursAt(s, pat, i)
    ensures s == s[..i] + pat + s[i + |pat|..]
  {
    assert s == s[..i] + s[i..i + |pat|] + s[i + |pat|..];
  }

  /** Occurrences behind a first character are occurrences in the whole text, one place on. */
  lemma NoOccurrenceBehind(c: char, t: string, pat: string, n: nat)
    requires forall i: nat :: i < n + 1 ==> !OccursAt([c] + t, pat, i)
    ensures forall i: nat :: i < n ==> !OccursAt(t, pat, i)
  {
    forall i: nat | i < n
      ensures !OccursAt(t, pat, i)
    {
      OccursShift([c], t, pat, i);
    }
  }


  /** Replacing a single character: every `c` becomes `rep`, every other character stays. */
  function ExpandChar(s: string, c: char, rep: string): string {
    if |s| == 0 then "" else (if s[0] == c then rep else [s[0]]) + ExpandChar(s[1..], c, rep)
  }

  /** `replace` with a one-character pattern is the character-wise expansion. */
  lemma {:induction false} ReplaceCharIsExpand(s: string, c: char, rep: string)
    ensures ReplaceAll(s, [c], rep) == ExpandChar(s, c, rep)
    decreases |s|
  {
    if |s| > 0 {
      ReplaceCharIsExpand(s[1..], c, rep);
      assert [c] <= s <==> s[0] == c;
      assert s[1..] == s[|[c]|..];
    }
  }

  /** Without `c` there is nothing to expand. */
  lemma {:induction false} ExpandCharAbsent(s: string, c: char, rep: string)
    requires c !in s
    ensures ExpandChar(s, c, rep) == s
    decreases |s|
  {
    if |s| > 0 {
      ExpandCharAbsent(s[1..], c, rep);
      assert s == [s[0]] + s[1..];
    }
  }

  /** An expansion whose replacement lacks `c` leaves no `c` behind. */
  lemma {:induction false} ExpandCharRemoves(s: string, c: char, rep: string)
    requires c !in rep
    ensures c !in ExpandChar(s, c, rep)
    decreases |s|
  {
    if |s| > 0 {
      ExpandCharRemoves(s[1..], c, rep);
    }
  }

  // ---------------------------------------------------------------------------
  // str::trim
  // ---------------------------------------------------------------------------

  /** Rust's `char::is_whitespace`: the Unicode White_Space property. */
  predicate IsWhitespace(ch: char) {
    || ('\t' <= ch <= '\r')
    || ch == ' '
    || ch == '\U{85}'
    || ch == '\U{A0}'
    || ch == '\U{1680}'
    || ('\U{2000}' <= ch <= '\U{200A}')
    || ch == '\U{2028}'
    || ch == '\U{2029}'
    || ch == '\U{202F}'
    || ch == '\U{205F}'
    || ch == '\U{3000}'
  }

  predicate AllWhitespace(s: string) {
    forall k :: 0 <= k < |s| ==> IsWhitespace(s[k])
  }

  /** Rust's `trim_start`: drops the leading whitespace and nothing else. */
  function TrimStart(s: string): (r: string)
    ensures |r| <= |s| && r == s[|s| - |r|..]
    ensures AllWhitespace(s[..|s| - |r|])
    ensures |r| > 0 ==> !IsWhitespace(r[0])
  {
    if |s| > 0 && IsWhitespace(s[0]) then
      var r := TrimStart(s[1..]);
      WhitespacePrefixCons(s, r);
      r
    else s
  }

  /** A suffix behind leading whitespace of `s[1..]` stays one behind `s[0]` as well. */
  lemma WhitespacePrefixCons(s: string, r: string)
    requires |s| > 0 && IsWhitespace(s[0])
    requires |r| <= |s| - 1 && r == s[1..][|s| - 1 - |r|..]
    requires AllWhitespace(s[1..][..|s| - 1 - |r|])
    ensures r == s[|s| - |r|..] && AllWhitespace(s[..|s| - |r|])
  {
    var t := s[1..];
    assert s[..|s| - |r|] == [s[0]] + t[..|t| - |r|];
    assert s[|s| - |r|..] == t[|t| - |r|..];
    WhitespaceCons(s[0], t[..|t| - |r|]);
  }

  /** Whitespace in front of whitespace is whitespace. */
  lemma WhitespaceCons(c: char, w: string)
    requires IsWhitespace(c) && AllWhitespace(w)
    ensures AllWhitespace([c] + w)
  {
    assert forall k :: 0 < k < |[c] + w| ==> ([c] + w)[k] == w[k - 1];
  }

  /** Rust's `trim_end`: drops the trailing whitespace and nothing else. */
  function TrimEnd(s: string): (r: string)
    ensures r <= s
    ensures AllWhitespace(s[|r|..])
    ensures |r| > 0 ==> !IsWhitespace(r[|r| - 1])
  {
    if |s| > 0 && IsWhitespace(s[|s| - 1]) then
      var r := TrimEnd(s[..|s| - 1]);
      assert s[|r|..] == s[..|s| - 1][|r|..] + [s[|s| - 1]];
      r
    else s
  }

  /** Rust's `trim`: the infix of `s` left after dropping whitespace at both ends. */
  function Trim(s: string): (r: string)
    ensures exists i, j :: 0 <= i <= j <= |s| && r == s[i..j]
                           && AllWhitespace(s[..i]) && AllWhitespace(s[j..])
    ensures |r| > 0 ==> !IsWhitespace(r[0]) && !IsWhitespace(r[|r| - 1])
  {
    var a := TrimStart(s);
    var r := TrimEnd(a);
    TrimInfix(s, a, r);
    r
  }

  /** The two trims together leave an infix framed by whitespace. */
  lemma TrimInfix(s: string, a: string, r: string)
    requires |a| <= |s| && a == s[|s| - |a|..] && AllWhitespace(s[..|s| - |a|])
    requires r <= a && AllWhitespace(a[|r|..])
    ensures exists i, j :: 0 <= i <= j <= |s| && r == s[i..j]
                           && AllWhitespace(s[..i]) && AllWhitespace(s[j..])
  {
    var i := |s| - |a|;
    var j := i + |r|;
    assert r == s[i..j];
    assert s[j..] == a[|r|..];
  }

  /** Whitespace in front of `x` is exactly what `trim_start` removes. */
  lemma {:induction false} TrimStartPastWhitespace(w: string, x: string)
    requires AllWhitespace(w)
    requires |x| > 0 && !IsWhitespace(x[0])
    ensures TrimStart(w + x) == x
    decreases |w|
  {
    if |w| > 0 {
      assert (w + x)[1..] == w[1..] + x;
      TrimStartPastWhitespace(w[1..], x);
    } else {
      assert w + x == x;
    }
  }

  /** Trimming whitespace followed by a non-blank text trims only the text's end. */
  lemma TrimPastWhitespace(w: string, x: string)
    requires AllWhitespace(w)
    requires |x| > 0 && !IsWhitespace(x[0])
    ensures Trim(w + x) == TrimEnd(x)
  {
    TrimStartPastWhitespace(w, x);
  }

  /** A whitespace-only suffix starts after every non-whitespace character. */
  lemma WhitespaceBound(s: string, m: nat, k: nat)
    requires m <= |s| && AllWhitespace(s[m..])
    requires k < |s| && !IsWhitespace(s[k])
    ensures k < m
  {
  }

  /** `s.split(c).nth(0)`: the text before the first `c`, or all of `s`. */
  function TakeUntil(s: string, c: char): (r: string)
    ensures r <= s && c !in r
    ensures |r| < |s| ==> s[|r|] == c
  {
    match IndexOf(s, c)
    case None => s
    case Some(i) => s[..i]
  }

  // ---------------------------------------------------------------------------
  // str::lines
  // ---------------------------------------------------------------------------

  /** Drops one trailing `\r` (a `\r\n` line ending). */
  function StripCr(l: string): string {
    if |l| > 0 && l[|l| - 1] == '\r' then l[..|l| - 1] else l
  }

  /**
    Rust's `str::lines`: split after each `\n`, drop the `\n` and a `\r`
    right before it; a final line without `\n` is kept as is, and no empty
    line is produced after a final `\n`.
   */
  function Lines(s: string): (ls: seq<string>)
    ensures forall k :: 0 <= k < |ls| ==> '\n' !in ls[k]
    decreases |s|
  {
    if |s| == 0 then []
    else
      match IndexOf(s, '\n')
      case None => [s]
      case Some(i) => [StripCr(s[..i])] + Lines(s[i + 1..])
  }

  /** Each line followed by a `\n`: the text `lines` reads back. */
  function Terminated(ls: seq<string>): string {
    if |ls| == 0 then "" else ls[0] + "\n" + Terminated(ls[1..])
  }

  /** A line `lines` returns unchanged: no `\n` inside, no `\r` at its end. */
  predicate PlainLine(l: string) {
    '\n' !in l && (|l| > 0 ==> l[|l| - 1] != '\r')
  }

  /** Reading a text line by line: the first line, then the lines of the rest. */
  lemma LinesCons(l: string, rest: string)
    requires PlainLine(l)
    ensures Lines(l + "\n" + rest) == [l] + Lines(rest)
  {
    var s, i := l + "\n" + rest, |l|;
    assert IndexOf(s, '\n') == Some(i) by {
      IndexOfAfter(l, '\n', rest);
    }
    LinesAt(s, i);
    assert s[..i] == l && StripCr(l) == l;
    assert s[i + 1..] == rest;
  }

  /** A `\r\n` ending ends a line too, and the `\r` is dropped with the `\n`. */
  lemma LinesCrLf(l: string, rest: string)
    requires '\n' !in l
    ensures Lines(l + "\r\n" + rest) == [l] + Lines(rest)
  {
    var l', i := l + "\r", |l| + 1;
    var s := l' + "\n" + rest;
    assert l + "\r\n" + rest == s by {
      assert "\r\n" == "\r" + "\n";
    }
    assert IndexOf(s, '\n') == Some(i) by {
      IndexOfAfter(l', '\n', rest);
    }
    LinesAt(s, i);
    assert StripCr(l') == l by {
      assert l'[..|l|] == l;
    }
    assert s[..i] == l';
    assert s[i + 1..] == rest;
  }

  /** `lines` at the first `\n`. */
  lemma LinesAt(s: string, i: nat)
    requires IndexOf(s, '\n') == Some(i)
    ensures Lines(s) == [StripCr(s[..i])] + Lines(s[i + 1..])
  {
    assert |s| != 0;
  }

  /** `lines` splits a newline-terminated text back into the lines it was made of. */
  lemma {:induction false} LinesOfTerminated(ls: seq<string>)
    requires forall k :: 0 <= k < |ls| ==> PlainLine(ls[k])
    ensures Lines(Terminated(ls)) == ls
  {
    if |ls| > 0 {
      LinesCons(ls[0], Terminated(ls[1..]));
      LinesOfTerminated(ls[1..]);
      assert ls == [ls[0]] + ls[1..];
    }
  }

  /**
    A text whose last line has no `\n` after it: `lines` still returns that
    line, as it is, after the terminated ones.
   */
  lemma {:induction false} LinesOfUnterminated(ls: seq<string>, last: string)
    requires forall k :: 0 <= k < |ls| ==> PlainLine(ls[k])
    requires last != "" && '\n' !in last
    ensures Lines(Terminated(ls) + last) == ls + [last]
  {
    if |ls| == 0 {
      assert Terminated(ls) + last == last;
      assert IndexOf(last, '\n') == None;
    } else {
      var t := Terminated(ls[1..]);
      assert Terminated(ls) + last == ls[0] + "\n" + (t + last);
      LinesCons(ls[0], t + last);
      LinesOfUnterminated(ls[1..], last);
      ConsAppend(ls[0], ls[1..], [last]);
      assert [ls[0]] + ls[1..] == ls;
    }
  }

  // ---------------------------------------------------------------------------
  // split / join
  // ---------------------------------------------------------------------------

  /** Rust's `s.split(c)`: always at least one piece; none contains `c`. */
  function Split(s: string, c: char): (parts: seq<string>)
    ensures |parts| > 0
    ensures forall k :: 0 <= k < |parts| ==> c !in parts[k]
    decreases |s|
  {
    match IndexOf(s, c)
    case None => [s]
    case Some(i) => [s[..i]] + Split(s[i + 1..], c)
  }

  /** `split` at the first separator. */
  lemma SplitAt(s: string, c: char, i: nat)
    requires IndexOf(s, c) == Some(i)
    ensures Split(s, c) == [s[..i]] + Split(s[i + 1..], c)
  {
  }

  /** Rust's `[String]::join(sep)`: the pieces with `sep` between neighbours. */
  function Join(ws: seq<string>, sep: string): string {
    if |ws| == 0 then ""
    else if |ws| == 1 then ws[0]
    else ws[0] + sep + Join(ws[1..], sep)
  }

  /** Splitting at a separator distributes over concatenation around it. */
  lemma {:induction false} SplitAppend(a: string, c: char, b: string)
    ensures Split(a + [c] + b, c) == Split(a, c) + Split(b, c)
    decreases |a|
  {
    if c !in a {
      SplitAtFirst(a, c, b);
    } else {
      var i := IndexOf(a, c).value;
      var s, x, a' := a + [c] + b, a[..i], a[i + 1..];
      assert Split(s, c) == [x] + Split(a' + [c] + b, c) by {
        IndexOfExtend(a, [c] + b, c);
        assert s == a + ([c] + b);
        SplitAt(s, c, i);
        assert s[..i] == x;
        assert s[i + 1..] == a' + [c] + b;
      }
      assert Split(a, c) == [x] + Split(a', c) by {
        SplitAt(a, c, i);
      }
      assert Split(a' + [c] + b, c) == Split(a', c) + Split(b, c) by {
        SplitAppend(a', c, b);
      }
      ConsAppend(x, Split(a', c), Split(b, c));
    }
  }

  lemma ConsAppend<T>(x: T, y: seq<T>, z: seq<T>)
    ensures [x] + (y + z) == [x] + y + z
  {
  }

  /** The first `c` of `a` is the first `c` of anything `a` starts. */
  lemma IndexOfExtend(a: string, t: string, c: char)
    requires c in a
    ensures IndexOf(a + t, c) == IndexOf(a, c)
  {
    var i := IndexOf(a, c).value;
    var j := IndexOf(a + t, c).value;
    assert (a + t)[i] == c;
    assert forall k :: 0 <= k < i ==> (a + t)[k] == a[k];
  }

  /** The first separator ends the first piece. */
  lemma SplitAtFirst(a: string, c: char, b: string)
    requires c !in a
    ensures Split(a + [c] + b, c) == [a] + Split(b, c)
  {
    var s := a + [c] + b;
    IndexOfAfter(a, c, b);
    assert s[..|a|] == a;
    assert s[|a| + 1..] == b;
  }

  /** Joining words with a one-character separator they lack, then splitting, gives the words back. */
  lemma {:induction false} SplitJoin(ws: seq<string>, c: char)
    requires |ws| > 0
    requires forall k :: 0 <= k < |ws| ==> c !in ws[k]
    ensures Split(Join(ws, [c]), c) == ws
  {
    if |ws| == 1 {
      assert Join(ws, [c]) == ws[0];
    } else {
      SplitJoin(ws[1..], c);
      SplitAppend(ws[0], c, Join(ws[1..], [c]));
      assert Join(ws, [c]) == ws[0] + [c] + Join(ws[1..], [c]);
      assert ws == [ws[0]] + ws[1..];
    }
  }
}

=== FILE: wrappers.dfy ===
/** Failure-carrying datatypes shared by every module of the model. */
module Wrappers {

  /** Rust's `Option<T>`. */
  datatype Option<+T> = None | Some(value: T)

  /** Rust's `Result<T, E>` with a textual error, as the logged messages carry. */
  datatype Result<+T> = Ok(value: T) | Err(msg: string)

  /** Rust's `u64`: every time stamp of a lyric line and the estimated position. */
  type U64 = x: nat | x < 0x1_0000_0000_0000_0000
}
